=== FILE: README.md ===
# Dental clinic appointment booking engine, in Dafny

This project models the booking engine of a desktop dental-clinic application. The engine does slot allocation and runs the appointment status state machine. It exists in two versions, and both are modelled as pure state transformers over immutable datatypes:

- **The in-memory manager** (`DentalApp.py`, class `AppointmentManager`). It keeps one insertion-ordered dictionary of appointments keyed by an 8-character id. Any stored appointment holds its (dentist, date, time) slot, whatever its status. `cancel_by_email` deletes only the first appointment of the patient.
- **The database-backed manager** (`AppointmentManager.py`). It uses a `patients` table and an `appointments` table, plus an in-memory "mirror" dictionary.
  - Availability counts only `Pending`/`Confirmed` rows, so a `Declined` appointment frees its slot.
  - `cancel_by_email` deletes every row of the patient.
  - `cancel`, `confirm_appointment` and `decline_appointment` act only on ids in the mirror. The mirror holds only what this manager object booked since it was constructed.
  - The meaning of each SQL statement is taken from `database_manager.py`, including the UNIQUE email, UNIQUE uuid and foreign-key constraints of its schema.

Modules, one per file:

| module | file | what it holds |
|---|---|---|
| `Wrappers` | wrappers.dfy | `Option` |
| `Seqs` | seqs.dfy | first index, remove-first, filter, update-where, subsequence, unique keys, descending sort on strings |
| `Records` | records.dfy | `Patient`, `Appointment`, `Status`, `Slot` |
| `Catalog` | catalog.dfy | the 18 time slots, both dentist rosters, the admin gate |
| `OrderedStore` | ordered_store.dfy | a Python dict of appointments as an insertion-ordered sequence (`d[k] = v`, `pop`, status update) |
| `MemoryManager` | memory_manager.dfy | the in-memory manager and its no-double-booking invariant |
| `RelationalStore` | relational_store.dfy | the two tables and the meaning of each query the manager issues |
| `DbManager` | db_manager.dfy | the database-backed manager |
| `DbInvariants` | db_invariants.dfy | the database manager's invariant, kept by every operation and by any run of calls |
| `ConfirmFinding` | confirm_finding.dfy | a concrete trace in which the database manager's confirm double-books a slot |

Modelling choices:
- Nondeterministic inputs become parameters. These are the new id `str(uuid4())[:8]` and the clock `datetime.now` (an opaque `Timestamp`).
- Freshness of a new id is a hypothesis of the lemmas that need it, not a precondition of `Reserve`.
  - In the in-memory manager, a colliding id overwrites in place, as `d[k] = v` does.
  - In the database manager, a colliding uuid is rejected by the UNIQUE constraint and leaves the table unchanged. The mirror is still overwritten.
- `patient_id` is a patient row's position plus one, because the patients table is AUTO_INCREMENT and nothing deletes from it.
- Where the two managers differ, or the code's behaviour is debatable, the model follows the code:
  - `cancel_by_email` in the in-memory manager removes only the first match.
  - The database version returns true for a known patient with no appointments.
  - Confirm is allowed from any status, including `Declined`. See Findings.

## Model

| member | source | states |
|---|---|---|
| Catalog.VerifyAdmin | DentalApp.py:51-53 | admin login succeeds exactly for user "admin" with password "admin123" |
| Catalog.TimeSlotsDistinct | DentalApp.py:43-49 | the slot catalog has 18 entries, all different |
| Seqs.FirstIndex | DentalApp.py:85-88 | the first position in insertion order whose element matches; none exactly when nothing matches |
| Seqs.RemoveFirst | DentalApp.py:85-88 | deleting the first match removes exactly that one position and keeps the order of the rest |
| Seqs.Filter | DentalApp.py:72-78 | the kept elements are exactly the input elements that pass the test |
| Seqs.FilterIsSubsequence | DentalApp.py:72-78 | filtering keeps the input order (the result is a subsequence) |
| Seqs.FilterCounts | DentalApp.py:72-78 | filtering drops no copies: each passing element occurs as often as in the input, and nothing is added |
| Seqs.FilterNoDuplicates | DentalApp.py:72-78 | filtering a duplicate-free list yields a duplicate-free list |
| Seqs.UpdateWhere | database_manager.py:201-204 | an UPDATE ... WHERE changes exactly the matching elements, leaving the others and the order alone |
| Seqs.InsertDesc | database_manager.py:153-159 | inserting into a descending list keeps it descending and adds exactly the one element |
| Seqs.SortDesc | database_manager.py:153-159 | ORDER BY ... DESC: the result is in descending order and a permutation of the input |
| Seqs.LexTotal | database_manager.py:158 | string order on the date column is total, so any two rows are comparable |
| OrderedStore.Put | DentalApp.py:62 | dict assignment replaces the entry in place when the key exists, else appends it at the end |
| OrderedStore.Pop | DentalApp.py:81 | `pop` reports whether the key was present and removes exactly that entry, keeping the order of the rest |
| OrderedStore.SetStatus | DentalApp.py:91-103 | a status update changes the status of the entries keyed `id` and nothing else |
| OrderedStore.PutKeepsUniqueIds | DentalApp.py:60-62 | after assignment the keys are still unique and the new key is present |
| OrderedStore.PutKeepsOtherIds | DentalApp.py:62 | dict assignment keeps every entry stored under a different key |
| OrderedStore.PopKeepsUniqueIds | DentalApp.py:80-81 | after `pop` the keys are still unique and the popped key is gone |
| OrderedStore.SetStatusAtIndex | DentalApp.py:93-94 | with unique keys a status update changes exactly one position |
| MemoryManager.IsTimeSlotAvailable | DentalApp.py:65-70 | free exactly when no stored appointment, of any status, has that dentist, date and time |
| MemoryManager.Reserve | DentalApp.py:55-63 | fails with the store unchanged exactly when some appointment holds the slot; otherwise it returns a Pending appointment with the given fields, and a fresh id is appended with everything else unchanged |
| MemoryManager.GetAvailableSlots | DentalApp.py:72-78 | exactly the available catalog entries, in catalog order, without duplicates, at most 18 |
| MemoryManager.Cancel | DentalApp.py:80-81 | true exactly when the id is stored; removes that one appointment, or changes nothing |
| MemoryManager.CancelByEmail | DentalApp.py:83-89 | true exactly when some appointment has the email; removes only the first such appointment in insertion order |
| MemoryManager.ConfirmAppointment | DentalApp.py:91-96 | true exactly when the id is stored; only that appointment's status becomes Confirmed; an unknown id changes nothing |
| MemoryManager.DeclineAppointment | DentalApp.py:98-103 | true exactly when the id is stored; only that appointment's status becomes Declined; an unknown id changes nothing |
| MemoryManager.SetAppointmentStatus | DentalApp.py:91-103 | a status change keeps every id, patient, slot and booking time and touches no other appointment |
| MemoryManager.ReserveKeepsValid | DentalApp.py:55-63 | booking keeps ids unique and every slot held by at most one appointment |
| MemoryManager.CancelKeepsValid | DentalApp.py:80-81 | cancelling keeps the invariant, and the id is gone afterwards |
| MemoryManager.CancelTwiceFails | DentalApp.py:80-81 | a second cancel of the same id returns false, and the listing no longer shows the id |
| MemoryManager.CancelByEmailKeepsValid | DentalApp.py:83-89 | cancelling by email keeps the invariant |
| MemoryManager.CancelByEmailKeepsLaterMatches | DentalApp.py:83-89 | a later appointment with the same email survives, so a second cancel by email succeeds |
| MemoryManager.SetAppointmentStatusKeepsValid | DentalApp.py:91-103 | confirm and decline keep the invariant |
| MemoryManager.ConfirmIdempotent | DentalApp.py:91-96 | confirming twice gives the same result and store as confirming once |
| MemoryManager.DeclineIdempotent | DentalApp.py:98-103 | declining twice gives the same result and store as declining once |
| MemoryManager.RunKeepsValid | DentalApp.py:55-103 | no double booking: any sequence of calls from a valid store keeps ids unique and slots exclusive |
| MemoryManager.EmptyIsValid | DentalApp.py:34-35 | the empty store a new manager starts with satisfies the invariant |
| MemoryManager.DeclineKeepsSlotHeld | DentalApp.py:57-59 | a Declined appointment still holds its slot in this version |
| RelationalStore.PatientIdOf | database_manager.py:101-118 | the lookup by email finds a patient with that email, and finds none exactly when no patient has it |
| RelationalStore.PatientIdOfUnique | database_manager.py:25 | with UNIQUE email, the patient found by email is the only one with that email |
| RelationalStore.AddPatient | database_manager.py:81-99 | a new email appends one patient row; a known email is rejected with nothing changed; emails stay unique |
| RelationalStore.AddAppointment | database_manager.py:120-143 | appends one Pending row, unless the uuid exists or the patient id is dangling, in which case nothing changes |
| RelationalStore.CountBlocking | database_manager.py:178-184 | the count is zero exactly when no row on the triple is Pending or Confirmed |
| RelationalStore.CheckSlotAvailable | database_manager.py:170-191 | available exactly when no Pending/Confirmed row has that dentist, date and time |
| RelationalStore.UpdateAppointmentStatus | database_manager.py:193-213 | the UPDATE sets the status of the row with that uuid and leaves the patients table and every other row untouched |
| RelationalStore.DeleteAppointmentByEmail | database_manager.py:215-241 | false with nothing deleted exactly when the email is unknown; otherwise every row of that patient goes and every other row stays |
| RelationalStore.DeleteAppointmentByUuid | database_manager.py:243-262 | always reports success; the row with that uuid goes and every other row stays |
| RelationalStore.Join | database_manager.py:153-157 | under the foreign key, the join lists every appointment with its patient's name and email, one row each |
| RelationalStore.GetAllAppointments | database_manager.py:145-168 | the listing is the join in descending date order, as a permutation |
| DbManager.IsTimeSlotAvailable | AppointmentManager.py:91-93 | free exactly when no Pending/Confirmed row holds the triple; Declined rows do not block |
| DbManager.GetAvailableSlots | AppointmentManager.py:95-101 | exactly the catalog entries with no Pending/Confirmed row, in catalog order, without duplicates |
| DbManager.EnsurePatient | AppointmentManager.py:71-78 | a known patient row is reused; an unknown email gets one new row with gender "N/A"; the patient can be found afterwards |
| DbManager.Reserve | AppointmentManager.py:65-89 | fails with nothing changed exactly when the slot is held; otherwise it returns a Pending appointment, puts it in the mirror, reuses or creates the patient, and with a fresh uuid appends exactly one row for that patient |
| DbManager.Cancel | AppointmentManager.py:103-108 | true exactly when the mirror holds the id; an id only in the database is left alone; otherwise the id leaves the mirror and the database and nothing else goes |
| DbManager.CancelByEmail | AppointmentManager.py:110-117 | true exactly when the patient is known, even with no appointments; then every row of that patient and every mirror entry with that email is deleted and nothing else |
| DbManager.SetAppointmentStatus | AppointmentManager.py:119-133 | acts only on ids in the mirror and sets the status in both the mirror and the table, touching nothing else |
| DbManager.ConfirmAppointment | AppointmentManager.py:119-125 | only a mirrored id is confirmed, in both places, whatever its previous status |
| DbManager.DeclineAppointment | AppointmentManager.py:127-133 | only a mirrored id is declined, in both places; an unknown id changes nothing |
| DbManager.ConfirmChecked | AppointmentManager.py:119-125 | corrected confirm: it refuses, changing nothing, only when the appointment is Declined and its slot is now held; otherwise it acts as confirm |
| DbManager.AllAppointments | AppointmentManager.py:135-144 | the listing comes from the database, not the mirror; it is in descending order of the date string; every entry carries the time of the listing call as its booking time; under the schema it has one entry per stored row with the patient's name |
| DbManager.Open | AppointmentManager.py:32-36 | a new manager keeps the database as it is and starts with a mirror that holds no id |
| DbManager.FromListing | AppointmentManager.py:140-142 | an appointment rebuilt from a listing row carries the time of the listing call as its booking time |
| DbManager.ReadBackMatchesRow | AppointmentManager.py:140-142 | a stored row read back through the join keeps its uuid, slot and status, and names the patient its foreign key points to |
| RelationalStore.ListingIsMonthFirst | database_manager.py:158 | the date column is MM/DD/YYYY text, so ORDER BY ... DESC lists 12/01/2025 before 01/10/2026 |
| DbManager.ListingLength | database_manager.py:153-157 | under the foreign key the inner join loses no row: the listing has one entry per stored appointment |
| DbManager.ListedRowInListing | database_manager.py:153-157 | under the foreign key every stored appointment appears in the listing with its patient's name and email |
| DbManager.RebuiltListing | AppointmentManager.py:137-143 | rebuilding appointments from the query rows keeps the order and covers every stored row |
| DbManager.Rebook | AppointmentManager.py:146-160 | an unknown email gives no appointment and no change; otherwise the new Pending appointment carries the stored name |
| DbInvariants.ReserveKeepsWellformed | AppointmentManager.py:65-89 | booking with a fresh uuid keeps the schema constraints, the mirror agreement and no double booking |
| DbInvariants.CancelKeepsWellformed | AppointmentManager.py:103-108 | cancel keeps the invariant, and the id is gone from the mirror, and from the table when it was mirrored |
| DbInvariants.CancelByEmailKeepsWellformed | AppointmentManager.py:110-117 | cancel by email keeps the invariant |
| DbInvariants.DeclineKeepsWellformed | AppointmentManager.py:127-133 | decline keeps the invariant |
| DbInvariants.ConfirmCheckedKeepsWellformed | AppointmentManager.py:119-125 | the corrected confirm keeps the invariant, no double booking included |
| DbInvariants.RebookKeepsWellformed | AppointmentManager.py:146-160 | rebook with a fresh uuid keeps the invariant |
| DbInvariants.OpenKeepsWellformed | AppointmentManager.py:32-36 | a manager opened on a consistent database starts well-formed |
| DbInvariants.RunKeepsWellformed | AppointmentManager.py:65-160 | no double booking, with confirm routed through the corrected `ConfirmChecked`: any sequence of calls with fresh uuids leaves at most one Pending/Confirmed row per slot (confirm as written breaks this, see Findings) |
| DbInvariants.CancelIsTerminal | AppointmentManager.py:103-108 | after a cancel of a mirrored id a second cancel fails and the listing no longer shows it |
| DbInvariants.DeclineRowFreesSlot | database_manager.py:178-184 | declining the row holding a slot leaves the slot available in the table |
| DbInvariants.DeclineFreesSlot | AppointmentManager.py:127-133 | declining a Pending or Confirmed appointment makes its slot available again |
| DbInvariants.RebookMovesPatient | AppointmentManager.py:146-160 | rebook succeeds exactly when the new slot is free after the cancel; afterwards the patient's only row is the new one, and none when the slot was taken; other patients' rows, and mirror entries with another email and id, are untouched |
| DbInvariants.ReopenedManagerIgnoresStoredRows | AppointmentManager.py:32-36 | a freshly constructed manager cannot cancel, confirm or decline an appointment stored earlier |
| ConfirmFinding.ConfirmAsWrittenDoubleBooks | AppointmentManager.py:119-125 | on a well-formed state, confirm as written succeeds and leaves two Pending/Confirmed rows on one slot |
| ConfirmFinding.ConfirmCheckedRefuses | AppointmentManager.py:119-125 | on the same state the corrected confirm refuses and changes nothing |
| ConfirmFinding.TraceIsWellformed | AppointmentManager.py:65-133 | the book, decline, book trace that leads there keeps the invariant |

## Left out

- The Tk GUI (`DentalApp.py` from line 109 on) is presentation code: widgets, message boxes, navigation and the date strings built from spin boxes.
- Database I/O: connections, commits and cursor clean-up, and `create_database`. The model describes only what each statement does to the tables.
- The fail-open branches, where an unreachable or failing database makes the slot look free (database_manager.py:173-174, 185-187). Also the other `False`/`None`/`[]` returns on connection errors, and partial failures part-way through an operation. Every statement is assumed to reach the database and commit.
- `uuid4` and `datetime.now` are caller-supplied parameters. The eight-character truncation of the id is not modelled, because ids are opaque strings.
- RelationalStore.AddPatient, RelationalStore.AddAppointment, DbManager.EnsurePatient and DbManager.Reserve: the VARCHAR widths of the schema (database_manager.py:24-25, 35-39) are not modelled. Names, emails and dentists are VARCHAR(100), dates and times VARCHAR(20) and the uuid VARCHAR(10), but the model stores every string in full. In the program, a new email longer than 100 characters is either rejected (strict SQL mode) or stored truncated, so the lookup by the full email finds nothing and `reserve` raises TypeError at AppointmentManager.py:78; the model books. In non-strict mode, a date or time longer than 20 characters is stored truncated, so the availability check compares the full value with the stored prefix and never matches; two bookings of that slot both succeed, where the model refuses the second.
- The columns `created_at`, the auto-increment `appointment_id`, and the `ON DELETE CASCADE` clause, which nothing in the core relies on.
- `User.py` is not part of this model. It is a plain record that neither manager uses.
- Concurrency between the availability check and the insert. The program is single-threaded.
- Status strings are an enumeration of the three values the managers write. Other strings cannot occur.
- The dentist rosters are recorded in `Catalog` but are not validated on booking, as in the program.
- RelationalStore.PatientIdOf: SQL `WHERE email = %s` and the UNIQUE email constraint are modelled as exact string equality. The schema sets no collation, and MySQL's default collations compare case-insensitively, so the program may also match case variants of an email (for example `Alice@x.com` for `alice@x.com`). The mirror loop at AppointmentManager.py:114 compares exactly, so in the program such a cancel by email can leave a mirror entry with no row behind it. DbInvariants.CancelByEmailKeepsWellformed relies on the exact equality.
- RelationalStore.CheckSlotAvailable: SQL `=` on dentist, date and time (database_manager.py:180-181), and on the uuid in the UPDATE and DELETE statements and the UNIQUE uuid (database_manager.py:35, 203, 252), is modelled as exact string equality. Under MySQL's default case-insensitive collations, the program may treat case variants as the same slot or the same uuid, for example `08:00 am` and `08:00 AM`. Under PAD SPACE collations it may also ignore trailing spaces, so `Dr. Jograd Ballesteros ` and `Dr. Jograd Ballesteros` would be one dentist. The model keeps such variants apart, so it may accept a booking that the program refuses.
- DbInvariants.Agrees: one `now` stands for both clocks. In the program the row's `booked_at` is the server's CURRENT_TIMESTAMP default, and the mirror entry gets Python's `datetime.now`; the model gives both the same value. Likewise DbManager.AllAppointments gives every rebuilt appointment one listing time, where the program calls `datetime.now` once per row.
- MySQL collation: dates are ordered by code-point string comparison. The column holds MM/DD/YYYY text, so this order is month first and not chronological across months or years (RelationalStore.ListingIsMonthFirst). Equal dates keep insertion order in the model, whereas the database leaves their order unspecified.
- MemoryManager.AllAppointments: it returns the store as a list in insertion order. It has no contract, because its result is the store itself.
- DbManager.Rebook: its contract is stated for the successful path only. The non-atomic "cancel then fail" outcome, and the fact that other patients are left alone, are stated by DbInvariants.RebookMovesPatient.
- DbManager.AllAppointments: coverage and length are stated under the schema constraints (`Constrained`), since without the foreign key the inner join drops rows.

## Findings

| source | as written | input that shows it | evidently intended | confidence | as-written member | corrected member |
|---|---|---|---|---|---|---|
| AppointmentManager.py:119-125 | `confirm_appointment` sets Confirmed whatever the current status, but a Declined row does not hold its slot (database_manager.py:181) | reserve A on (Dr. Lee, 01/10/2026, 08:00 AM); decline A; reserve B on the same triple (allowed, since A no longer blocks); confirm A. Two Pending/Confirmed rows now hold one slot | re-confirming a Declined appointment should be refused when its slot has been taken meanwhile | medium, not executed | ConfirmFinding.ConfirmAsWrittenDoubleBooks | DbInvariants.ConfirmCheckedKeepsWellformed |

The request-sequence lemma `DbInvariants.RunKeepsWellformed` routes confirm through the corrected `DbManager.ConfirmChecked`. `DbManager.ConfirmAppointment` keeps the behaviour as written.

=== FILE: catalog.dfy ===
/**
 * The fixed configuration both managers construct in `__init__`: the
 * bookable times of day, the dentist rosters and the admin credentials.
 */
module Catalog {
  import opened Seqs

  /** Eighteen half-hour starts, 08:00-11:30 and 01:00-05:30 with a lunch gap. */
  const TimeSlots: seq<string> := [
    "08:00 AM", "08:30 AM", "09:00 AM", "09:30 AM",
    "10:00 AM", "10:30 AM", "11:00 AM", "11:30 AM",
    "01:00 PM", "01:30 PM", "02:00 PM", "02:30 PM",
    "03:00 PM", "03:30 PM", "04:00 PM", "04:30 PM",
    "05:00 PM", "05:30 PM"
  ]

  /** The in-memory manager's roster, spelling (stray spaces included) as configured. */
  const MemoryDentists: seq<string> := [
    "Dr. Jhunsoy Love Jun", "Dr. Jograd Ballesteros ", "Dr. Beyonc\U{E9} Calubaquib",
    "Dr. Estanislao Manansala", "Dr.  Federico Liwanag VII", "Dr. Vergamino Antiporda",
    "Dr. Princess Payapa Pamplona"
  ]

  /** The database-backed manager's roster; its third name carries a doubly encoded accent. */
  const DatabaseDentists: seq<string> := [
    "Dr. Jhunsoy Love Jun", "Dr. Jograd Ballesteros", "Dr. Beyonc\U{C3}\U{A9} Calubaquib",
    "Dr. Estanislao Manansala", "Dr. Federico Liwanag VII", "Dr. Vergamino Antiporda",
    "Dr. Princess Payapa Pamplona"
  ]

  const AdminUsername: string := "admin"
  const AdminPassword: string := "admin123"

  /** The admin gate: one fixed credential pair, compared exactly. */
  function VerifyAdmin(username: string, password: string): (ok: bool)
    ensures ok <==> username == "admin" && password == "admin123"
  {
    username == AdminUsername && password == AdminPassword
  }

  lemma TimeSlotsDistinct()
    ensures |TimeSlots| == 18 && NoDuplicates(TimeSlots)
  {
  }
}

=== FILE: confirm_finding.dfy ===
/**
 * The database-backed confirm sets Confirmed whatever the current status.
 * Because a Declined row no longer holds its slot, the slot can be booked
 * again, and confirming the Declined appointment afterwards puts two
 * Pending/Confirmed appointments on one slot. This module replays that
 * trace step by step and shows that `ConfirmChecked` refuses its last step.
 */
module ConfirmFinding {
  import opened Wrappers
  import opened Records
  import opened OrderedStore
  import opened RelationalStore
  import opened DbManager
  import opened DbInvariants

  const Alice := Patient("Alice", "alice@x.com")
  const Bob := Patient("Bob", "bob@x.com")
  const Day := "01/10/2026"
  const Hour := "08:00 AM"
  const Dentist := "Dr. Lee"

  const RowA := AppointmentRow("a1", 1, Day, Hour, Dentist, Pending, "", 0)
  const RowB := AppointmentRow("b1", 2, Day, Hour, Dentist, Pending, "", 1)
  const ApptA := Appointment("a1", Alice, Day, Hour, Dentist, Pending, 0)
  const ApptB := Appointment("b1", Bob, Day, Hour, Dentist, Pending, 1)

  /** After Alice books. */
  const M1 := Manager(Db([PatientRow("Alice", "alice@x.com", "N/A")], [RowA]), [ApptA])
  /** After the admin declines Alice's appointment. */
  const M2 := Manager(M1.db.(appointments := [RowA.(status := Declined)]), [ApptA.(status := Declined)])
  /** After Bob books the freed slot. */
  const M3 := Manager(
    Db(M1.db.patients + [PatientRow("Bob", "bob@x.com", "N/A")], [RowA.(status := Declined), RowB]),
    [ApptA.(status := Declined), ApptB])

  lemma AliceBooks()
    ensures Reserve(Open(Db([], [])), Alice, Day, Hour, Dentist, "", "a1", 0) == (Some(ApptA), M1)
  {
    var m0 := Open(Db([], []));
    assert IsTimeSlotAvailable(m0, Dentist, Day, Hour);
    assert PatientIdOf(m0.db, Alice.email).None?;
    assert !HasUuid(m0.db, "a1");
    var r := Reserve(m0, Alice, Day, Hour, Dentist, "", "a1", 0);
    assert r.0 == Some(ApptA);
    assert r.1.mirror == Put([], ApptA) == [ApptA];
    assert r.1.db.patients == [PatientRow("Alice", "alice@x.com", "N/A")];
    var pid :| BelongsTo(r.1.db, AppointmentRow("a1", pid, Day, Hour, Dentist, Pending, "", 0), Alice.email)
      && r.1.db.appointments == [] + [AppointmentRow("a1", pid, Day, Hour, Dentist, Pending, "", 0)];
    assert pid == 1;
    assert r.1.db.appointments == [RowA];
  }

  lemma AdminDeclinesAlice()
    ensures DeclineAppointment(M1, "a1") == (true, M2)
  {
    assert M1.mirror[0].id == "a1";
    var r := DeclineAppointment(M1, "a1");
    assert r.1.mirror == M2.mirror;
    assert r.1.db.appointments == M2.db.appointments;
  }

  lemma BobBooksFreedSlot()
    ensures Reserve(M2, Bob, Day, Hour, Dentist, "", "b1", 1) == (Some(ApptB), M3)
  {
    assert IsTimeSlotAvailable(M2, Dentist, Day, Hour);
    assert PatientIdOf(M2.db, Bob.email).None?;
    assert !HasUuid(M2.db, "b1");
    assert IndexOf(M2.mirror, "b1").None?;
    var r := Reserve(M2, Bob, Day, Hour, Dentist, "", "b1", 1);
    assert r.0 == Some(ApptB);
    assert r.1.mirror == M3.mirror;
    assert r.1.db.patients == M3.db.patients;
    var pid :| BelongsTo(r.1.db, AppointmentRow("b1", pid, Day, Hour, Dentist, Pending, "", 1), Bob.email)
      && r.1.db.appointments == M2.db.appointments + [AppointmentRow("b1", pid, Day, Hour, Dentist, Pending, "", 1)];
    assert pid == 2;
    assert r.1.db.appointments == M3.db.appointments;
  }

  /** The trace reaches M3 from an empty database and every invariant still holds there. */
  lemma TraceIsWellformed()
    ensures Wellformed(M3)
  {
    OpenKeepsWellformed(Db([], []));
    AliceBooks();
    ReserveKeepsWellformed(Open(Db([], [])), Alice, Day, Hour, Dentist, "", "a1", 0);
    AdminDeclinesAlice();
    DeclineKeepsWellformed(M1, "a1");
    BobBooksFreedSlot();
    assert !HasUuid(M2.db, "b1");
    ReserveKeepsWellformed(M2, Bob, Day, Hour, Dentist, "", "b1", 1);
  }

  /** Confirming Alice's declined appointment as written leaves two active rows on the slot. */
  lemma ConfirmAsWrittenDoubleBooks()
    ensures Wellformed(M3)
    ensures ConfirmAppointment(M3, "a1").0
    ensures !NoDoubleBooking(ConfirmAppointment(M3, "a1").1.db)
  {
    TraceIsWellformed();
    assert M3.mirror[0].id == "a1";
    var rows' := ConfirmAppointment(M3, "a1").1.db.appointments;
    assert rows'[0] == RowA.(status := Confirmed) && rows'[1] == RowB;
    assert rows'[0] in rows' && rows'[1] in rows';
  }

  /** The corrected confirm refuses the same step and changes nothing. */
  lemma ConfirmCheckedRefuses()
    ensures ConfirmChecked(M3, "a1") == (false, M3)
  {
    assert M3.mirror[0].id == "a1";
    assert IndexOf(M3.mirror, "a1") == Some(0);
    assert RowB in M3.db.appointments && Blocks(RowB, Dentist, Day, Hour);
  }
}

=== FILE: db_invariants.dfy ===
/**
 * What the database-backed manager keeps true: the schema constraints, a
 * mirror that agrees with the database on every entry it holds, and at
 * most one Pending/Confirmed row per (dentist, date, time). Every
 * operation preserves this except the confirm as written, which can revive
 * a Declined booking onto a slot that has since been re-booked.
 */
module DbInvariants {
  import opened Wrappers
  import opened Seqs
  import opened Records
  import opened OrderedStore
  import opened RelationalStore
  import opened DbManager

  /** The mirror entry `a` and the database row agree on everything both record. */
  predicate Agrees(db: Db, row: AppointmentRow, a: Appointment) {
    && row.uuid == a.id && row.date == a.date && row.time == a.time && row.dentist == a.dentist
    && row.status == a.status && row.bookedAt == a.bookedAt
    && BelongsTo(db, row, a.patient.email)
  }

  predicate Mirrored(db: Db, a: Appointment) {
    exists row | row in db.appointments :: Agrees(db, row, a)
  }

  /** At most one Pending/Confirmed row per slot. */
  predicate NoDoubleBooking(db: Db) {
    forall r1, r2 | r1 in db.appointments && r2 in db.appointments ::
      Active(r1.status) && Active(r2.status) && RowSlot(r1) == RowSlot(r2) ==> r1 == r2
  }

  predicate Wellformed(m: Manager) {
    && Constrained(m.db)
    && NoDoubleBooking(m.db)
    && UniqueIds(m.mirror)
    && forall a | a in m.mirror :: Mirrored(m.db, a)
  }

  /** A mirrored id is a stored uuid; so an id the database lacks is fresh for the mirror too. */
  lemma FreshForMirror(m: Manager, id: string)
    requires Wellformed(m) && !HasUuid(m.db, id)
    ensures !Contains(m.mirror, id)
  {
    forall i | 0 <= i < |m.mirror| ensures m.mirror[i].id != id {
      assert Mirrored(m.db, m.mirror[i]);
    }
  }

  /** Agreement only looks at the patients a row refers to, so appending patients keeps it. */
  lemma AgreesUnderMorePatients(db: Db, db': Db, row: AppointmentRow, a: Appointment)
    requires db.patients <= db'.patients
    requires Agrees(db, row, a)
    ensures Agrees(db', row, a)
  {
    assert db'.patients[row.patientId - 1] == db.patients[row.patientId - 1];
  }

  /**
   * Inserting a row with a fresh uuid, a known patient and a slot nothing
   * holds keeps the schema constraints and the slots exclusive.
   */
  lemma InsertRowKeepsDb(db: Db, db': Db, newRow: AppointmentRow)
    requires Constrained(db) && NoDoubleBooking(db)
    requires db.patients <= db'.patients && UniqueKeys(db'.patients, EmailOf)
    requires db'.appointments == db.appointments + [newRow]
    requires !HasUuid(db, newRow.uuid) && KnownPatient(db', newRow.patientId)
    requires forall row | row in db.appointments :: !Blocks(row, newRow.dentist, newRow.date, newRow.time)
    ensures Constrained(db') && NoDoubleBooking(db')
  {
    assert forall i | 0 <= i < |db.appointments| :: UuidOf(db.appointments[i]) != newRow.uuid by {
      forall i | 0 <= i < |db.appointments| ensures UuidOf(db.appointments[i]) != newRow.uuid {
        assert db.appointments[i] in db.appointments;
      }
    }
    UniqueKeysAppend(db.appointments, newRow, UuidOf);
    forall r1, r2 | r1 in db'.appointments && r2 in db'.appointments &&
        Active(r1.status) && Active(r2.status) && RowSlot(r1) == RowSlot(r2)
      ensures r1 == r2
    {
      if r1 != newRow && r2 != newRow {
        assert r1 in db.appointments && r2 in db.appointments;
      }
    }
  }

  /** Appending a mirror entry backed by a row, over a database that only grew, keeps the mirror agreeing. */
  lemma AppendMirroredKeeps(db: Db, db': Db, mirror: Store, a: Appointment)
    requires forall b | b in mirror :: Mirrored(db, b)
    requires db.patients <= db'.patients
    requires forall row | row in db.appointments :: row in db'.appointments
    requires Mirrored(db', a)
    ensures forall b | b in mirror + [a] :: Mirrored(db', b)
  {
    forall b | b in mirror + [a] ensures Mirrored(db', b) {
      if b != a {
        assert b in mirror;
        var row :| row in db.appointments && Agrees(db, row, b);
        AgreesUnderMorePatients(db, db', row, b);
        assert row in db'.appointments;
      }
    }
  }

  lemma ReserveKeepsWellformed(m: Manager, patient: Patient, date: string, time: string,
                               dentist: string, reason: string, id: string, now: Timestamp)
    requires Wellformed(m) && !HasUuid(m.db, id)
    ensures Wellformed(Reserve(m, patient, date, time, dentist, reason, id, now).1)
  {
    var (r, m') := Reserve(m, patient, date, time, dentist, reason, id, now);
    if r.Some? {
      var a := r.value;
      var db := m.db;
      var pid :| BelongsTo(m'.db, AppointmentRow(id, pid, date, time, dentist, Pending, reason, now), patient.email)
        && m'.db.appointments == db.appointments + [AppointmentRow(id, pid, date, time, dentist, Pending, reason, now)];
      var newRow := AppointmentRow(id, pid, date, time, dentist, Pending, reason, now);
      assert db.patients <= m'.db.patients;
      if PatientIdOf(db, patient.email).None? {
        UniqueKeysAppend(db.patients, PatientRow(patient.name, patient.email, "N/A"), EmailOf);
      }
      InsertRowKeepsDb(db, m'.db, newRow);
      FreshForMirror(m, id);
      IndexOfContains(m.mirror, id);
      PutKeepsUniqueIds(m.mirror, a);
      assert m'.mirror == m.mirror + [a];
      assert Agrees(m'.db, newRow, a) && newRow in m'.db.appointments;
      AppendMirroredKeeps(db, m'.db, m.mirror, a);
    }
  }

  /** Deleting rows (keeping uuids unique) keeps the constraints and the slots exclusive. */
  lemma DeleteRowsKeepsDb(db: Db, db': Db)
    requires Constrained(db) && NoDoubleBooking(db)
    requires db'.patients == db.patients
    requires forall row | row in db'.appointments :: row in db.appointments
    requires UniqueKeys(db'.appointments, UuidOf)
    ensures Constrained(db') && NoDoubleBooking(db')
  {
  }

  /** Mirror entries whose rows survive a deletion still agree with the database. */
  lemma DeleteRowsKeepsMirrored(db: Db, db': Db, mirror: Store, mirror': Store)
    requires db'.patients == db.patients
    requires forall b | b in mirror :: Mirrored(db, b)
    requires forall b | b in mirror' :: b in mirror
    requires forall row, b | row in db.appointments && b in mirror' && Agrees(db, row, b) ::
      row in db'.appointments
    ensures forall b | b in mirror' :: Mirrored(db', b)
  {
    forall b | b in mirror' ensures Mirrored(db', b) {
      var row :| row in db.appointments && Agrees(db, row, b);
      assert row in db'.appointments;
    }
  }

  /** What `pop` leaves is part of the old mirror and holds no entry keyed `id`. */
  lemma PopLeavesOthers(s: Store, id: string)
    requires UniqueIds(s)
    ensures forall b | b in Pop(s, id).1 :: b in s && b.id != id
  {
    PopKeepsUniqueIds(s, id);
    if Contains(s, id) {
      var r := Pop(s, id).1;
      var i := IndexOf(s, id).value;
      forall b | b in r ensures b in s {
        var k :| 0 <= k < |r| && r[k] == b;
        assert b == (if k < i then s[k] else s[k + 1]);
      }
    }
  }

  /** Deleting the rows of one uuid keeps every row that agrees with a mirror entry under another id. */
  lemma DeleteUuidKeepsOthers(db: Db, id: string, mirror: Store)
    requires forall b | b in mirror :: b.id != id
    ensures forall row, b | row in db.appointments && b in mirror && Agrees(db, row, b) ::
      row in DeleteAppointmentByUuid(db, id).1.appointments
  {
  }

  lemma CancelKeepsWellformed(m: Manager, id: string)
    requires Wellformed(m)
    ensures Wellformed(Cancel(m, id).1)
    ensures !Contains(Cancel(m, id).1.mirror, id)
    ensures !HasUuid(Cancel(m, id).1.db, id) || !Contains(m.mirror, id)
  {
    var (ok, m') := Cancel(m, id);
    PopKeepsUniqueIds(m.mirror, id);
    if ok {
      UniqueKeysFilter(m.db.appointments, NotUuid(id), UuidOf);
      DeleteRowsKeepsDb(m.db, m'.db);
      PopLeavesOthers(m.mirror, id);
      DeleteUuidKeepsOthers(m.db, id, m'.mirror);
      DeleteRowsKeepsMirrored(m.db, m'.db, m.mirror, m'.mirror);
    }
  }

  lemma CancelByEmailKeepsWellformed(m: Manager, email: string)
    requires Wellformed(m)
    ensures Wellformed(CancelByEmail(m, email).1)
  {
    var (ok, m') := CancelByEmail(m, email);
    if ok {
      var rows := m.db.appointments;
      var pid := PatientIdOf(m.db, email).value;
      assert m'.db.appointments == Filter(rows, NotOfPatient(pid));
      assert m'.mirror == Filter(m.mirror, NotEmail(email));
      UniqueKeysFilter(rows, NotOfPatient(pid), UuidOf);
      UniqueKeysFilter(m.mirror, NotEmail(email), IdOf);
      DeleteRowsKeepsDb(m.db, m'.db);
      forall row, b | row in rows && b in m'.mirror && Agrees(m.db, row, b)
        ensures row in m'.db.appointments
      {
        var j :| 0 <= j < |m'.mirror| && m'.mirror[j] == b;
        assert NotEmail(email)(m'.mirror[j]);
        var k :| 0 <= k < |rows| && rows[k] == row;
        assert NotOfPatient(pid)(rows[k]);
      }
      DeleteRowsKeepsMirrored(m.db, m'.db, m.mirror, m'.mirror);
    }
  }

  /** A status update by uuid keeps the schema constraints. */
  lemma UpdateStatusKeepsConstraints(db: Db, id: string, st: Status)
    requires Constrained(db)
    ensures Constrained(UpdateAppointmentStatus(db, id, st))
  {
    var rows := db.appointments;
    var rows' := UpdateAppointmentStatus(db, id, st).appointments;
    assert forall i | 0 <= i < |rows| :: UuidOf(rows'[i]) == UuidOf(rows[i]);
    forall row | row in rows' ensures KnownPatient(db, row.patientId) {
      var k :| 0 <= k < |rows'| && rows'[k] == row;
      assert rows[k] in rows;
    }
  }

  /** Updating one id to `st` in both the mirror and the database keeps each mirror entry agreeing. */
  lemma UpdateStatusKeepsMirrored(db: Db, mirror: Store, id: string, st: Status, k: nat)
    requires k < |mirror| && Mirrored(db, mirror[k])
    ensures Mirrored(UpdateAppointmentStatus(db, id, st), SetStatus(mirror, id, st)[k])
  {
    var db' := UpdateAppointmentStatus(db, id, st);
    var a := mirror[k];
    var b := SetStatus(mirror, id, st)[k];
    var row :| row in db.appointments && Agrees(db, row, a);
    var j :| 0 <= j < |db.appointments| && db.appointments[j] == row;
    var row' := db'.appointments[j];
    assert db'.patients == db.patients;
    if a.id == id {
      assert b == a.(status := st);
      assert row' == row.(status := st);
    } else {
      assert b == a;
      assert row' == row;
    }
    assert Agrees(db', row', b);
    assert row' in db'.appointments;
  }

  /** Any status update through the mirror keeps the constraints and the mirror agreement. */
  lemma SetAppointmentStatusKeepsMirror(m: Manager, id: string, st: Status)
    requires Wellformed(m)
    ensures var m' := SetAppointmentStatus(m, id, st).1;
      Constrained(m'.db) && UniqueIds(m'.mirror) && forall a | a in m'.mirror :: Mirrored(m'.db, a)
  {
    var (ok, m') := SetAppointmentStatus(m, id, st);
    if ok {
      UpdateStatusKeepsConstraints(m.db, id, st);
      assert forall i | 0 <= i < |m.mirror| :: IdOf(m'.mirror[i]) == IdOf(m.mirror[i]);
      forall b | b in m'.mirror ensures Mirrored(m'.db, b) {
        var k :| 0 <= k < |m'.mirror| && m'.mirror[k] == b;
        assert m.mirror[k] in m.mirror;
        UpdateStatusKeepsMirrored(m.db, m.mirror, id, st, k);
      }
    }
  }

  /** Declining rows never adds a Pending/Confirmed row, so the slots stay exclusive. */
  lemma DeclineRowsKeepsNoDoubleBooking(db: Db, id: string)
    requires NoDoubleBooking(db)
    ensures NoDoubleBooking(UpdateAppointmentStatus(db, id, Declined))
  {
    var rows := db.appointments;
    var rows' := UpdateAppointmentStatus(db, id, Declined).appointments;
    forall row | row in rows' && Active(row.status) ensures row in rows {
      var i :| 0 <= i < |rows'| && rows'[i] == row;
      assert rows'[i] == rows[i];
    }
  }

  lemma DeclineKeepsWellformed(m: Manager, id: string)
    requires Wellformed(m)
    ensures Wellformed(DeclineAppointment(m, id).1)
  {
    var (ok, m') := DeclineAppointment(m, id);
    SetAppointmentStatusKeepsMirror(m, id, Declined);
    if ok {
      DeclineRowsKeepsNoDoubleBooking(m.db, id);
      assert m'.db == UpdateAppointmentStatus(m.db, id, Declined);
    }
  }

  /**
   * Confirming the single row at position `t` keeps the slots exclusive when
   * that row already held its slot or nothing else holds it.
   */
  lemma ConfirmRowKeepsNoDoubleBooking(db: Db, id: string, t: nat)
    requires NoDoubleBooking(db)
    requires t < |db.appointments| && db.appointments[t].uuid == id
    requires forall k | 0 <= k < |db.appointments| && db.appointments[k].uuid == id :: k == t
    requires Active(db.appointments[t].status) ||
      forall row | row in db.appointments ::
        !Blocks(row, db.appointments[t].dentist, db.appointments[t].date, db.appointments[t].time)
    ensures NoDoubleBooking(UpdateAppointmentStatus(db, id, Confirmed))
  {
    var rows := db.appointments;
    var rows' := UpdateAppointmentStatus(db, id, Confirmed).appointments;
    var target := rows[t];
    assert rows'[t] == target.(status := Confirmed);
    // Every other row is untouched, and none of them holds the target's slot.
    forall k | 0 <= k < |rows| && k != t
      ensures rows'[k] == rows[k]
      ensures !(Active(rows[k].status) && RowSlot(rows[k]) == RowSlot(target))
    {
      assert rows[k] in rows && target in rows;
      if !Active(target.status) {
        assert !Blocks(rows[k], target.dentist, target.date, target.time);
      }
    }
    forall r1, r2 | r1 in rows' && r2 in rows' &&
        Active(r1.status) && Active(r2.status) && RowSlot(r1) == RowSlot(r2)
      ensures r1 == r2
    {
      var i :| 0 <= i < |rows'| && rows'[i] == r1;
      var j :| 0 <= j < |rows'| && rows'[j] == r2;
      assert rows[i] in rows && rows[j] in rows;
    }
  }

  /** The corrected confirm keeps every invariant, no double booking included. */
  lemma ConfirmCheckedKeepsWellformed(m: Manager, id: string)
    requires Wellformed(m)
    ensures Wellformed(ConfirmChecked(m, id).1)
  {
    var (ok, m') := ConfirmChecked(m, id);
    if ok {
      SetAppointmentStatusKeepsMirror(m, id, Confirmed);
      var rows := m.db.appointments;
      var a := m.mirror[IndexOf(m.mirror, id).value];
      assert a in m.mirror;
      var target :| target in rows && Agrees(m.db, target, a);
      var t :| 0 <= t < |rows| && rows[t] == target;
      forall k | 0 <= k < |rows| && rows[k].uuid == id ensures k == t {
        UniqueKeysAt(rows, UuidOf, k, t);
      }
      ConfirmRowKeepsNoDoubleBooking(m.db, id, t);
    }
  }

  lemma RebookKeepsWellformed(m: Manager, email: string, date: string, time: string,
                              dentist: string, reason: string, id: string, now: Timestamp)
    requires Wellformed(m) && !HasUuid(m.db, id)
    ensures Wellformed(Rebook(m, email, date, time, dentist, reason, id, now).1)
  {
    match PatientIdOf(m.db, email)
    case None =>
    case Some(pid) =>
      var m1 := CancelByEmail(m, email).1;
      CancelByEmailKeepsWellformed(m, email);
      assert !HasUuid(m1.db, id);
      ReserveKeepsWellformed(m1, Patient(m.db.patients[pid - 1].name, email), date, time, dentist, reason, id, now);
  }

  /** A database that satisfies the schema and holds no double booking opens well-formed. */
  lemma OpenKeepsWellformed(db: Db)
    requires Constrained(db) && NoDoubleBooking(db)
    ensures Wellformed(Open(db))
  {
  }

  /** One call into the manager; confirm goes through the corrected `ConfirmChecked`. */
  datatype Request =
    | Book(patient: Patient, date: string, time: string, dentist: string, reason: string,
           id: string, now: Timestamp)
    | CancelId(id: string)
    | CancelEmail(email: string)
    | ConfirmId(id: string)
    | DeclineId(id: string)
    | RebookEmail(email: string, date: string, time: string, dentist: string, reason: string,
                  id: string, now: Timestamp)

  function Apply(m: Manager, q: Request): Manager {
    match q
    case Book(p, date, time, dentist, reason, id, now) => Reserve(m, p, date, time, dentist, reason, id, now).1
    case CancelId(id) => Cancel(m, id).1
    case CancelEmail(e) => CancelByEmail(m, e).1
    case ConfirmId(id) => ConfirmChecked(m, id).1
    case DeclineId(id) => DeclineAppointment(m, id).1
    case RebookEmail(e, date, time, dentist, reason, id, now) => Rebook(m, e, date, time, dentist, reason, id, now).1
  }

  /** The caller-supplied id of a booking is not yet a stored uuid (the program relies on uuid4 for this). */
  predicate FreshFor(m: Manager, q: Request) {
    (q.Book? || q.RebookEmail?) ==> !HasUuid(m.db, q.id)
  }

  predicate Admissible(m: Manager, qs: seq<Request>)
    decreases |qs|
  {
    |qs| == 0 || (FreshFor(m, qs[0]) && Admissible(Apply(m, qs[0]), qs[1..]))
  }

  function Run(m: Manager, qs: seq<Request>): Manager
    decreases |qs|
  {
    if |qs| == 0 then m else Run(Apply(m, qs[0]), qs[1..])
  }

  /**
   * No double booking: from a well-formed manager (one opened on an empty
   * database included), every sequence of calls with fresh booking ids
   * leaves at most one Pending/Confirmed appointment per slot.
   */
  lemma {:induction false} RunKeepsWellformed(m: Manager, qs: seq<Request>)
    requires Wellformed(m) && Admissible(m, qs)
    ensures Wellformed(Run(m, qs))
    ensures NoDoubleBooking(Run(m, qs).db)
    decreases |qs|
  {
    if |qs| > 0 {
      match qs[0] {
        case Book(p, date, time, dentist, reason, id, now) =>
          ReserveKeepsWellformed(m, p, date, time, dentist, reason, id, now);
        case CancelId(id) => CancelKeepsWellformed(m, id);
        case CancelEmail(e) => CancelByEmailKeepsWellformed(m, e);
        case ConfirmId(id) => ConfirmCheckedKeepsWellformed(m, id);
        case DeclineId(id) => DeclineKeepsWellformed(m, id);
        case RebookEmail(e, date, time, dentist, reason, id, now) =>
          RebookKeepsWellformed(m, e, date, time, dentist, reason, id, now);
      }
      RunKeepsWellformed(Apply(m, qs[0]), qs[1..]);
    }
  }

  /**
   * Cancel is terminal: after a successful cancel the id is in neither the
   * mirror nor the database, a second cancel fails, and the listing no
   * longer shows it.
   */
  lemma CancelIsTerminal(m: Manager, id: string, now: Timestamp)
    requires Wellformed(m) && Contains(m.mirror, id)
    ensures Cancel(m, id).0
    ensures !Cancel(Cancel(m, id).1, id).0
    ensures forall a | a in AllAppointments(Cancel(m, id).1, now) :: a.id != id
  {
    CancelKeepsWellformed(m, id);
  }

  /** Declining the Pending/Confirmed row at position `t` leaves nothing holding its slot. */
  lemma DeclineRowFreesSlot(db: Db, id: string, t: nat)
    requires NoDoubleBooking(db)
    requires t < |db.appointments| && db.appointments[t].uuid == id && Active(db.appointments[t].status)
    ensures var target := db.appointments[t];
      CheckSlotAvailable(UpdateAppointmentStatus(db, id, Declined), target.dentist, target.date, target.time)
  {
    var rows := db.appointments;
    var target := rows[t];
    var rows' := UpdateAppointmentStatus(db, id, Declined).appointments;
    forall k | 0 <= k < |rows'| ensures !Blocks(rows'[k], target.dentist, target.date, target.time) {
      assert rows[k] in rows && target in rows;
    }
  }

  /**
   * A Declined appointment frees its slot: declining a Pending or Confirmed
   * appointment makes its triple available again.
   */
  lemma DeclineFreesSlot(m: Manager, id: string)
    requires Wellformed(m) && Contains(m.mirror, id)
    requires Active(m.mirror[IndexOf(m.mirror, id).value].status)
    ensures var a := m.mirror[IndexOf(m.mirror, id).value];
      IsTimeSlotAvailable(DeclineAppointment(m, id).1, a.dentist, a.date, a.time)
  {
    var a := m.mirror[IndexOf(m.mirror, id).value];
    assert a in m.mirror;
    var target :| target in m.db.appointments && Agrees(m.db, target, a);
    var t :| 0 <= t < |m.db.appointments| && m.db.appointments[t] == target;
    DeclineRowFreesSlot(m.db, id, t);
    assert DeclineAppointment(m, id).1.db == UpdateAppointmentStatus(m.db, id, Declined);
  }

  /**
   * Rebooking moves the patient: afterwards the patient's only appointment
   * is the new Pending one on the requested slot, or, when that slot was
   * taken, the patient has no appointment at all. Other patients' rows and
   * mirror entries are untouched.
   */
  lemma RebookMovesPatient(m: Manager, email: string, date: string, time: string, dentist: string,
                           reason: string, id: string, now: Timestamp)
    requires Wellformed(m) && !HasUuid(m.db, id) && PatientIdOf(m.db, email).Some?
    ensures var (r, m') := Rebook(m, email, date, time, dentist, reason, id, now);
      && (r.Some? <==> IsTimeSlotAvailable(CancelByEmail(m, email).1, dentist, date, time))
      && (forall row | row in m'.db.appointments && BelongsTo(m'.db, row, email) ::
            r.Some? && row.uuid == id && row.status == Pending && RowSlot(row) == Slot(dentist, date, time))
      && (r.Some? ==> exists row | row in m'.db.appointments :: BelongsTo(m'.db, row, email) && row.uuid == id)
      && (forall row | row in m.db.appointments && KnownPatient(m.db, row.patientId) && !BelongsTo(m.db, row, email) ::
            row in m'.db.appointments)
      && (forall a | a in m.mirror && a.patient.email != email && a.id != id :: a in m'.mirror)
  {
    var pid := PatientIdOf(m.db, email).value;
    var name := m.db.patients[pid - 1].name;
    var m1 := CancelByEmail(m, email).1;
    assert m1.db.patients == m.db.patients;
    assert !HasUuid(m1.db, id);
    var (r, m') := Reserve(m1, Patient(name, email), date, time, dentist, reason, id, now);
    assert (r, m') == Rebook(m, email, date, time, dentist, reason, id, now);
    if r.Some? {
      assert PatientIdOf(m1.db, email).Some?;
      assert m'.db.patients == m.db.patients;
      PutKeepsOtherIds(m1.mirror, r.value);
    }
  }

  /**
   * A manager constructed over an existing database starts with an empty
   * mirror, so it cannot cancel, confirm or decline a stored appointment.
   */
  lemma ReopenedManagerIgnoresStoredRows(db: Db, id: string)
    requires HasUuid(db, id)
    ensures Cancel(Open(db), id) == (false, Open(db))
    ensures ConfirmAppointment(Open(db), id) == (false, Open(db))
    ensures DeclineAppointment(Open(db), id) == (false, Open(db))
  {
  }
}

=== FILE: db_manager.dfy ===
/**
 * The database-backed `AppointmentManager`: the database (both tables) is
 * the record of truth for availability and listing, while a dictionary
 * `appointments` mirrors only what THIS manager object has booked since it
 * was constructed. Cancel, confirm and decline consult the mirror first,
 * so an appointment stored by an earlier session cannot be acted on.
 */
module DbManager {
  import opened Wrappers
  import opened Seqs
  import opened Records
  import opened Catalog
  import opened OrderedStore
  import opened RelationalStore

  datatype Manager = Manager(db: Db, mirror: Store)

  /** Construction: the database persists, the mirror starts empty. */
  function Open(db: Db): (r: Manager)
    ensures r.db == db
    ensures forall id: string :: !Contains(r.mirror, id)
  {
    Manager(db, [])
  }

  /** Availability is the database's count of Pending/Confirmed rows on the triple. */
  function IsTimeSlotAvailable(m: Manager, dentist: string, date: string, time: string): (free: bool)
    ensures free <==> forall row | row in m.db.appointments :: !Blocks(row, dentist, date, time)
  {
    CheckSlotAvailable(m.db, dentist, date, time)
  }

  /** The catalog entries with no Pending/Confirmed row for `dentist` on `date`, in catalog order. */
  function GetAvailableSlots(m: Manager, dentist: string, date: string): (r: seq<string>)
    ensures Subsequence(r, TimeSlots) && NoDuplicates(r) && |r| <= 18
    ensures forall i | 0 <= i < |r| :: IsTimeSlotAvailable(m, dentist, date, r[i])
    ensures forall i | 0 <= i < |TimeSlots| && IsTimeSlotAvailable(m, dentist, date, TimeSlots[i]) ::
      TimeSlots[i] in r
  {
    var free := (t: string) => IsTimeSlotAvailable(m, dentist, date, t);
    FilterIsSubsequence(TimeSlots, free);
    TimeSlotsDistinct();
    FilterNoDuplicates(TimeSlots, free);
    Filter(TimeSlots, free)
  }

  /** The get-or-create step of a booking: the database once a patient row for the email exists. */
  function EnsurePatient(db: Db, patient: Patient): (r: Db)
    ensures r.appointments == db.appointments
    ensures PatientIdOf(db, patient.email).Some? ==> r == db
    ensures PatientIdOf(db, patient.email).None? ==>
      r.patients == db.patients + [PatientRow(patient.name, patient.email, "N/A")]
    ensures PatientIdOf(r, patient.email).Some?
  {
    if PatientIdOf(db, patient.email).Some? then db
    else AddPatient(db, patient.name, patient.email, "N/A")
  }

  /**
   * Books the triple when no Pending/Confirmed row holds it: reuses the
   * patient row found by email or inserts one with gender "N/A", inserts a
   * Pending row under `id`, and records the appointment in the mirror.
   */
  function Reserve(m: Manager, patient: Patient, date: string, time: string, dentist: string,
                   reason: string, id: string, now: Timestamp): (r: (Option<Appointment>, Manager))
    ensures r.0.Some? <==> IsTimeSlotAvailable(m, dentist, date, time)
    ensures r.0.None? ==> r.1 == m
    ensures r.0.Some? ==>
      && r.0.value.id == id && r.0.value.patient == patient && r.0.value.status == Pending
      && r.0.value.date == date && r.0.value.time == time && r.0.value.dentist == dentist
      && r.0.value.bookedAt == now
    ensures r.0.Some? ==> r.1.mirror == Put(m.mirror, r.0.value)
    ensures r.0.Some? && PatientIdOf(m.db, patient.email).Some? ==> r.1.db.patients == m.db.patients
    ensures r.0.Some? && PatientIdOf(m.db, patient.email).None? ==>
      r.1.db.patients == m.db.patients + [PatientRow(patient.name, patient.email, "N/A")]
    ensures r.0.Some? && !HasUuid(m.db, id) ==>
      exists pid | BelongsTo(r.1.db, AppointmentRow(id, pid, date, time, dentist, Pending, reason, now), patient.email) ::
        r.1.db.appointments == m.db.appointments + [AppointmentRow(id, pid, date, time, dentist, Pending, reason, now)]
  {
    if !CheckSlotAvailable(m.db, dentist, date, time) then (None, m)
    else
      var db1 := EnsurePatient(m.db, patient);
      var pid := PatientIdOf(db1, patient.email).value;
      var a := Appointment(id, patient, date, time, dentist, Pending, now);
      var db2 := AddAppointment(db1, pid, id, date, time, dentist, reason, now);
      assert !HasUuid(m.db, id) ==> !HasUuid(db1, id);
      (Some(a), Manager(db2, Put(m.mirror, a)))
  }

  /**
   * Deletes `id` from the mirror and the database, but only when the mirror
   * holds it; a row the mirror does not know is left alone.
   */
  function Cancel(m: Manager, id: string): (r: (bool, Manager))
    ensures r.0 <==> Contains(m.mirror, id)
    ensures !r.0 ==> r.1 == m
    ensures r.0 ==> r.1.mirror == Pop(m.mirror, id).1 && r.1.db.patients == m.db.patients
    ensures r.0 ==> forall row | row in r.1.db.appointments :: row in m.db.appointments && row.uuid != id
    ensures r.0 ==> forall row | row in m.db.appointments && row.uuid != id :: row in r.1.db.appointments
  {
    if Contains(m.mirror, id) then
      var (_, rest) := Pop(m.mirror, id);
      var (ok, db') := DeleteAppointmentByUuid(m.db, id);
      (ok, Manager(db', rest))
    else (false, m)
  }

  function NotEmail(email: string): Appointment -> bool {
    (a: Appointment) => a.patient.email != email
  }

  /**
   * Deletes EVERY database row of the patient with `email` and every mirror
   * entry with that email; true exactly when the patient is known, even if
   * they held no appointment.
   */
  function CancelByEmail(m: Manager, email: string): (r: (bool, Manager))
    ensures r.0 <==> PatientIdOf(m.db, email).Some?
    ensures !r.0 ==> r.1 == m
    ensures r.1.db.patients == m.db.patients
    ensures r.0 ==> forall a | a in r.1.mirror :: a in m.mirror && a.patient.email != email
    ensures r.0 ==> forall a | a in m.mirror && a.patient.email != email :: a in r.1.mirror
    ensures r.0 && UniqueKeys(m.db.patients, EmailOf) ==>
      forall row | row in r.1.db.appointments :: row in m.db.appointments && !BelongsTo(m.db, row, email)
    ensures r.0 ==>
      forall row | row in m.db.appointments && KnownPatient(m.db, row.patientId) && !BelongsTo(m.db, row, email) ::
        row in r.1.db.appointments
  {
    var (ok, db') := DeleteAppointmentByEmail(m.db, email);
    if ok then
      var pid := PatientIdOf(m.db, email).value;
      assert UniqueKeys(m.db.patients, EmailOf) ==>
        forall row | row in db'.appointments :: !BelongsTo(m.db, row, email) by {
        if UniqueKeys(m.db.patients, EmailOf) {
          forall row | row in db'.appointments ensures !BelongsTo(m.db, row, email) {
            if BelongsTo(m.db, row, email) {
              PatientIdOfUnique(m.db, email, row.patientId);
            }
          }
        }
      }
      (true, Manager(db', Filter(m.mirror, NotEmail(email))))
    else (false, m)
  }

  /**
   * Sets the status of `id` in the mirror and in the database when the
   * mirror holds `id`; the shared body of confirm and decline.
   */
  function SetAppointmentStatus(m: Manager, id: string, st: Status): (r: (bool, Manager))
    ensures r.0 <==> Contains(m.mirror, id)
    ensures !r.0 ==> r.1 == m
    ensures r.0 ==> r.1.mirror == SetStatus(m.mirror, id, st)
    ensures r.0 ==> r.1.db.patients == m.db.patients
    ensures r.0 ==> |r.1.db.appointments| == |m.db.appointments|
    ensures r.0 ==> forall i | 0 <= i < |m.db.appointments| ::
      var row := m.db.appointments[i];
      r.1.db.appointments[i] == (if row.uuid == id then row.(status := st) else row)
  {
    if Contains(m.mirror, id) then
      (true, Manager(UpdateAppointmentStatus(m.db, id, st), SetStatus(m.mirror, id, st)))
    else (false, m)
  }

  /** As written: sets Confirmed whatever the current status, so it can revive a Declined booking. */
  function ConfirmAppointment(m: Manager, id: string): (r: (bool, Manager))
    ensures r.0 <==> Contains(m.mirror, id)
    ensures !r.0 ==> r.1 == m
    ensures |r.1.mirror| == |m.mirror|
    ensures r.0 ==> forall i | 0 <= i < |m.mirror| ::
      r.1.mirror[i] == (if m.mirror[i].id == id then m.mirror[i].(status := Confirmed) else m.mirror[i])
    ensures r.0 ==> r.1.db.patients == m.db.patients && |r.1.db.appointments| == |m.db.appointments|
    ensures r.0 ==> forall i | 0 <= i < |m.db.appointments| ::
      var row := m.db.appointments[i];
      r.1.db.appointments[i] == (if row.uuid == id then row.(status := Confirmed) else row)
  {
    SetAppointmentStatus(m, id, Confirmed)
  }

  function DeclineAppointment(m: Manager, id: string): (r: (bool, Manager))
    ensures r.0 <==> Contains(m.mirror, id)
    ensures !r.0 ==> r.1 == m
    ensures |r.1.mirror| == |m.mirror|
    ensures r.0 ==> forall i | 0 <= i < |m.mirror| ::
      r.1.mirror[i] == (if m.mirror[i].id == id then m.mirror[i].(status := Declined) else m.mirror[i])
    ensures r.0 ==> r.1.db.patients == m.db.patients && |r.1.db.appointments| == |m.db.appointments|
    ensures r.0 ==> forall i | 0 <= i < |m.db.appointments| ::
      var row := m.db.appointments[i];
      r.1.db.appointments[i] == (if row.uuid == id then row.(status := Declined) else row)
  {
    SetAppointmentStatus(m, id, Declined)
  }

  /**
   * Corrected confirm: refuses, changing nothing, when the appointment is
   * Declined and its slot has meanwhile been taken by a Pending or
   * Confirmed row; otherwise behaves as `ConfirmAppointment`.
   */
  function ConfirmChecked(m: Manager, id: string): (r: (bool, Manager))
    ensures r.0 ==> Contains(m.mirror, id)
    ensures !Contains(m.mirror, id) ==> r == (false, m)
    ensures !r.0 ==> r.1 == m
    ensures r.0 ==> r == ConfirmAppointment(m, id)
    ensures Contains(m.mirror, id) && !r.0 ==>
      var a := m.mirror[IndexOf(m.mirror, id).value];
      a.status == Declined && !IsTimeSlotAvailable(m, a.dentist, a.date, a.time)
    ensures Contains(m.mirror, id) ==>
      var a := m.mirror[IndexOf(m.mirror, id).value];
      a.status == Declined && !IsTimeSlotAvailable(m, a.dentist, a.date, a.time) ==> r == (false, m)
  {
    IndexOfContains(m.mirror, id);
    match IndexOf(m.mirror, id)
    case None => (false, m)
    case Some(i) =>
      var a := m.mirror[i];
      if !Active(a.status) && !CheckSlotAvailable(m.db, a.dentist, a.date, a.time) then (false, m)
      else SetAppointmentStatus(m, id, Confirmed)
  }

  function DateOf(a: Appointment): string { a.date }

  /**
   * A listing row as the manager rebuilds it: the reason is dropped and
   * `booked_at` is the time of the listing call, not of the booking.
   */
  function FromListing(l: ListingRow, now: Timestamp): (r: Appointment)
    ensures r.bookedAt == now
  {
    Appointment(l.uuid, Patient(l.name, l.email), l.date, l.time, l.dentist, l.status, now)
  }

  /**
   * A stored row read back through the join: same uuid, slot and status,
   * and the patient that the row's foreign key names.
   */
  lemma ReadBackMatchesRow(db: Db, row: AppointmentRow, now: Timestamp)
    requires KnownPatient(db, row.patientId)
    ensures var a := FromListing(Listed(db, row), now);
      && a.id == row.uuid && SlotOf(a) == RowSlot(row) && a.status == row.status
      && a.patient == Patient(db.patients[row.patientId - 1].name, db.patients[row.patientId - 1].email)
      && BelongsTo(db, row, a.patient.email)
  {
  }

  /**
   * Reads every appointment back from the database (not the mirror),
   * in descending order of the date string (month first, so not
   * chronological across months or years), each with the patient's
   * stored name.
   */
  function AllAppointments(m: Manager, now: Timestamp): (r: seq<Appointment>)
    ensures SortedDesc(r, DateOf)
    ensures forall a | a in r :: a.bookedAt == now
    ensures forall a | a in r :: exists row | row in m.db.appointments :: row.uuid == a.id
    ensures Constrained(m.db) ==> |r| == |m.db.appointments|
    ensures Constrained(m.db) ==>
      forall row | row in m.db.appointments :: FromListing(Listed(m.db, row), now) in r
  {
    var rows := GetAllAppointments(m.db);
    var r := seq(|rows|, i requires 0 <= i < |rows| => FromListing(rows[i], now));
    RebuiltListing(m.db, rows, now, r);
    r
  }

  lemma RebuiltListing(db: Db, rows: seq<ListingRow>, now: Timestamp, r: seq<Appointment>)
    requires rows == GetAllAppointments(db)
    requires |r| == |rows| && forall i | 0 <= i < |rows| :: r[i] == FromListing(rows[i], now)
    ensures SortedDesc(r, DateOf)
    ensures forall a | a in r :: exists row | row in db.appointments :: row.uuid == a.id
    ensures Constrained(db) ==> |r| == |db.appointments|
    ensures Constrained(db) ==> forall row | row in db.appointments :: FromListing(Listed(db, row), now) in r
  {
    RebuiltSorted(rows, now, r);
    forall a | a in r ensures exists row | row in db.appointments :: row.uuid == a.id {
      var i :| 0 <= i < |r| && r[i] == a;
      assert rows[i] in rows;
    }
    if Constrained(db) {
      ListingCoversRows(db, rows, now, r);
    }
  }

  lemma RebuiltSorted(rows: seq<ListingRow>, now: Timestamp, r: seq<Appointment>)
    requires SortedDesc(rows, ListingDate)
    requires |r| == |rows| && forall i | 0 <= i < |rows| :: r[i] == FromListing(rows[i], now)
    ensures SortedDesc(r, DateOf)
  {
    assert forall i | 0 <= i < |r| :: DateOf(r[i]) == ListingDate(rows[i]);
  }

  /** Under the foreign key the listing has one row per stored appointment. */
  lemma ListingLength(db: Db)
    requires Constrained(db)
    ensures |GetAllAppointments(db)| == |db.appointments|
  {
    var rows := GetAllAppointments(db);
    var joined := Join(db, db.appointments);
    assert |multiset(rows)| == |multiset(joined)|;
  }

  /** Under the foreign key every stored row appears, joined with its patient, in the listing. */
  lemma ListedRowInListing(db: Db, row: AppointmentRow)
    requires Constrained(db) && row in db.appointments
    ensures Listed(db, row) in GetAllAppointments(db)
  {
    var joined := Join(db, db.appointments);
    var k :| 0 <= k < |db.appointments| && db.appointments[k] == row;
    assert joined[k] == Listed(db, row);
    SameMultisetMember(GetAllAppointments(db), joined, joined[k]);
  }

  /** Under the foreign key every stored row appears, rebuilt, in the listing. */
  lemma ListingCoversRows(db: Db, rows: seq<ListingRow>, now: Timestamp, r: seq<Appointment>)
    requires Constrained(db)
    requires rows == GetAllAppointments(db)
    requires |r| == |rows| && forall i | 0 <= i < |rows| :: r[i] == FromListing(rows[i], now)
    ensures |r| == |db.appointments|
    ensures forall row | row in db.appointments :: FromListing(Listed(db, row), now) in r
  {
    ListingLength(db);
    forall row | row in db.appointments ensures FromListing(Listed(db, row), now) in r {
      ListedRowInListing(db, row);
      var i :| 0 <= i < |rows| && rows[i] == Listed(db, row);
      assert r[i] == FromListing(Listed(db, row), now);
    }
  }

  /**
   * Cancels every appointment of the known patient `email`, then reserves
   * the new slot under the patient's stored name. Not atomic: when the new
   * slot is taken the old appointments are gone anyway.
   */
  function Rebook(m: Manager, email: string, date: string, time: string, dentist: string,
                  reason: string, id: string, now: Timestamp): (r: (Option<Appointment>, Manager))
    ensures PatientIdOf(m.db, email).None? ==> r == (None, m)
    ensures r.0.Some? ==>
      var pid := PatientIdOf(m.db, email).value;
      && r.0.value.patient == Patient(m.db.patients[pid - 1].name, email)
      && r.0.value.id == id && r.0.value.status == Pending
      && r.0.value.date == date && r.0.value.time == time && r.0.value.dentist == dentist
  {
    match PatientIdOf(m.db, email)
    case None => (None, m)
    case Some(pid) =>
      var name := m.db.patients[pid - 1].name;
      var m1 := CancelByEmail(m, email).1;
      assert m1.db.patients == m.db.patients;
      Reserve(m1, Patient(name, email), date, time, dentist, reason, id, now)
  }
}

=== FILE: memory_manager.dfy ===
/**
 * The in-memory `AppointmentManager` of the desktop application: one
 * insertion-ordered dictionary of appointments, where ANY stored
 * appointment, whatever its status, holds its (dentist, date, time) slot.
 * Every operation is a pure function from the current store to its result
 * and the next store.
 */
module MemoryManager {
  import opened Wrappers
  import opened Seqs
  import opened Records
  import opened Catalog
  import opened OrderedStore

  predicate Occupies(a: Appointment, dentist: string, date: string, time: string) {
    a.dentist == dentist && a.date == date && a.time == time
  }

  function OccupiesSlot(dentist: string, date: string, time: string): Appointment -> bool {
    (a: Appointment) => Occupies(a, dentist, date, time)
  }

  /** The manager's invariant: ids are unique and no two appointments share a slot. */
  predicate Valid(s: Store) {
    UniqueIds(s) && UniqueKeys(s, SlotOf)
  }

  /** Scans the store for any appointment on the triple. */
  function IsTimeSlotAvailable(s: Store, dentist: string, date: string, time: string): (free: bool)
    ensures free <==> forall i | 0 <= i < |s| :: !Occupies(s[i], dentist, date, time)
  {
    FirstIndex(s, OccupiesSlot(dentist, date, time)).None?
  }

  /**
   * Books the triple under the caller-chosen `id` and timestamp, or
   * returns None and the unchanged store when any appointment holds it.
   */
  function Reserve(s: Store, patient: Patient, date: string, time: string, dentist: string,
                   id: string, now: Timestamp): (r: (Option<Appointment>, Store))
    ensures r.0.None? <==> exists i | 0 <= i < |s| :: Occupies(s[i], dentist, date, time)
    ensures r.0.Some? <==> IsTimeSlotAvailable(s, dentist, date, time)
    ensures r.0.None? ==> r.1 == s
    ensures r.0.Some? ==>
      && r.0.value.id == id && r.0.value.patient == patient && r.0.value.status == Pending
      && r.0.value.date == date && r.0.value.time == time && r.0.value.dentist == dentist
      && r.0.value.bookedAt == now
    ensures r.0.Some? && !Contains(s, id) ==> r.1 == s + [r.0.value]
  {
    if !IsTimeSlotAvailable(s, dentist, date, time) then (None, s)
    else
      var a := Appointment(id, patient, date, time, dentist, Pending, now);
      (Some(a), Put(s, a))
  }

  /** The catalog entries still free for `dentist` on `date`, in catalog order. */
  function GetAvailableSlots(s: Store, dentist: string, date: string): (r: seq<string>)
    ensures Subsequence(r, TimeSlots) && NoDuplicates(r) && |r| <= 18
    ensures forall i | 0 <= i < |r| :: IsTimeSlotAvailable(s, dentist, date, r[i])
    ensures forall i | 0 <= i < |TimeSlots| && IsTimeSlotAvailable(s, dentist, date, TimeSlots[i]) ::
      TimeSlots[i] in r
  {
    var free := (t: string) => IsTimeSlotAvailable(s, dentist, date, t);
    FilterIsSubsequence(TimeSlots, free);
    TimeSlotsDistinct();
    FilterNoDuplicates(TimeSlots, free);
    Filter(TimeSlots, free)
  }

  /** Deletes the appointment keyed `id`; true iff there was one. */
  function Cancel(s: Store, id: string): (r: (bool, Store))
    ensures r.0 <==> Contains(s, id)
    ensures !r.0 ==> r.1 == s
    ensures r.0 ==> exists i | 0 <= i < |s| :: s[i].id == id && r.1 == s[..i] + s[i + 1..]
  {
    var (found, rest) := Pop(s, id);
    if found then
      var i := IndexOf(s, id).value;
      assert s[i].id == id && rest == s[..i] + s[i + 1..];
      (found, rest)
    else (found, rest)
  }

  function HasEmail(email: string): Appointment -> bool {
    (a: Appointment) => a.patient.email == email
  }

  /**
   * Walks the store in insertion order and deletes the FIRST appointment of
   * the patient with `email`; later ones stay.
   */
  function CancelByEmail(s: Store, email: string): (r: (bool, Store))
    ensures r.0 <==> exists i | 0 <= i < |s| :: s[i].patient.email == email
    ensures !r.0 ==> r.1 == s
    ensures r.0 ==> exists i | 0 <= i < |s| ::
      && s[i].patient.email == email
      && (forall j | 0 <= j < i :: s[j].patient.email != email)
      && r.1 == s[..i] + s[i + 1..]
  {
    match FirstIndex(s, HasEmail(email))
    case None => (false, s)
    case Some(i) =>
      var rest := RemoveFirst(s, HasEmail(email));
      assert s[i].patient.email == email && rest == s[..i] + s[i + 1..];
      (true, rest)
  }

  /** Sets the status of the appointment keyed `id`; false when there is none. */
  function SetAppointmentStatus(s: Store, id: string, st: Status): (r: (bool, Store))
    ensures r.0 <==> Contains(s, id)
    ensures |r.1| == |s|
    ensures forall i | 0 <= i < |s| ::
      && r.1[i].id == s[i].id && r.1[i].patient == s[i].patient
      && SlotOf(r.1[i]) == SlotOf(s[i]) && r.1[i].bookedAt == s[i].bookedAt
      && r.1[i].status == (if s[i].id == id then st else s[i].status)
    ensures !r.0 ==> r.1 == s
  {
    if Contains(s, id) then (true, SetStatus(s, id, st))
    else
      assert SetStatus(s, id, st) == s;
      (false, s)
  }

  function ConfirmAppointment(s: Store, id: string): (r: (bool, Store))
    ensures r.0 <==> Contains(s, id)
    ensures !r.0 ==> r.1 == s
    ensures |r.1| == |s|
    ensures forall i | 0 <= i < |s| ::
      r.1[i] == (if s[i].id == id then s[i].(status := Confirmed) else s[i])
  {
    SetAppointmentStatus(s, id, Confirmed)
  }

  function DeclineAppointment(s: Store, id: string): (r: (bool, Store))
    ensures r.0 <==> Contains(s, id)
    ensures !r.0 ==> r.1 == s
    ensures |r.1| == |s|
    ensures forall i | 0 <= i < |s| ::
      r.1[i] == (if s[i].id == id then s[i].(status := Declined) else s[i])
  {
    SetAppointmentStatus(s, id, Declined)
  }

  /** `list(self.appointments.values())`: the stored appointments in insertion order. */
  function AllAppointments(s: Store): seq<Appointment> {
    s
  }

  // -----------------------------------------------------------------------
  // The no-double-booking invariant and the operations' frame properties.
  // -----------------------------------------------------------------------

  lemma ReserveKeepsValid(s: Store, patient: Patient, date: string, time: string, dentist: string,
                          id: string, now: Timestamp)
    requires Valid(s)
    ensures Valid(Reserve(s, patient, date, time, dentist, id, now).1)
  {
    var (r, s') := Reserve(s, patient, date, time, dentist, id, now);
    if r.Some? {
      var a := r.value;
      PutKeepsUniqueIds(s, a);
      forall j | 0 <= j < |s| ensures SlotOf(s[j]) != SlotOf(a) {
        assert !Occupies(s[j], dentist, date, time);
      }
      match IndexOf(s, a.id)
      case None => UniqueKeysAppend(s, a, SlotOf);
      case Some(i) => UniqueKeysReplace(s, i, a, SlotOf);
    }
  }

  lemma CancelKeepsValid(s: Store, id: string)
    requires Valid(s)
    ensures Valid(Cancel(s, id).1)
    ensures !Contains(Cancel(s, id).1, id)
  {
    PopKeepsUniqueIds(s, id);
    if Contains(s, id) {
      UniqueKeysDelete(s, IndexOf(s, id).value, SlotOf);
    }
  }

  /** Cancel is terminal: a second cancel of the same id finds nothing. */
  lemma CancelTwiceFails(s: Store, id: string)
    requires Valid(s)
    ensures !Cancel(Cancel(s, id).1, id).0
    ensures forall a | a in AllAppointments(Cancel(s, id).1) :: a.id != id
  {
    CancelKeepsValid(s, id);
  }

  lemma CancelByEmailKeepsValid(s: Store, email: string)
    requires Valid(s)
    ensures Valid(CancelByEmail(s, email).1)
  {
    match FirstIndex(s, HasEmail(email))
    case None =>
    case Some(i) =>
      UniqueKeysDelete(s, i, IdOf);
      UniqueKeysDelete(s, i, SlotOf);
  }

  /**
   * Only the first match goes: when the patient held two appointments, the
   * later one is still stored and a second cancel by email succeeds.
   */
  lemma {:induction false} CancelByEmailKeepsLaterMatches(s: Store, email: string, i: nat, j: nat)
    requires i < j < |s|
    requires s[i].patient.email == email && s[j].patient.email == email
    ensures s[j] in CancelByEmail(s, email).1
    ensures CancelByEmail(CancelByEmail(s, email).1, email).0
  {
    var k := FirstIndex(s, HasEmail(email)).value;
    var rest := CancelByEmail(s, email).1;
    assert k <= i;
    assert rest[j - 1] == s[j];
  }

  lemma SetAppointmentStatusKeepsValid(s: Store, id: string, st: Status)
    requires Valid(s)
    ensures Valid(SetAppointmentStatus(s, id, st).1)
  {
    var r := SetAppointmentStatus(s, id, st).1;
    assert forall i | 0 <= i < |s| :: IdOf(r[i]) == IdOf(s[i]) && SlotOf(r[i]) == SlotOf(s[i]);
  }

  lemma ConfirmIdempotent(s: Store, id: string)
    ensures ConfirmAppointment(ConfirmAppointment(s, id).1, id) == ConfirmAppointment(s, id)
  {
    var once := ConfirmAppointment(s, id);
    var twice := ConfirmAppointment(once.1, id);
    assert twice.1 == once.1;
    assert twice.0 == once.0 by {
      if once.0 {
        var i :| 0 <= i < |s| && s[i].id == id;
        assert once.1[i].id == id;
      }
    }
  }

  lemma DeclineIdempotent(s: Store, id: string)
    ensures DeclineAppointment(DeclineAppointment(s, id).1, id) == DeclineAppointment(s, id)
  {
    var once := DeclineAppointment(s, id);
    var twice := DeclineAppointment(once.1, id);
    assert twice.1 == once.1;
    assert twice.0 == once.0 by {
      if once.0 {
        var i :| 0 <= i < |s| && s[i].id == id;
        assert once.1[i].id == id;
      }
    }
  }

  /** One call into the manager. */
  datatype Request =
    | Book(patient: Patient, date: string, time: string, dentist: string, id: string, now: Timestamp)
    | CancelId(id: string)
    | CancelEmail(email: string)
    | ConfirmId(id: string)
    | DeclineId(id: string)

  function Apply(s: Store, q: Request): Store {
    match q
    case Book(p, date, time, dentist, id, now) => Reserve(s, p, date, time, dentist, id, now).1
    case CancelId(id) => Cancel(s, id).1
    case CancelEmail(e) => CancelByEmail(s, e).1
    case ConfirmId(id) => ConfirmAppointment(s, id).1
    case DeclineId(id) => DeclineAppointment(s, id).1
  }

  function Run(s: Store, qs: seq<Request>): Store
    decreases |qs|
  {
    if |qs| == 0 then s else Run(Apply(s, qs[0]), qs[1..])
  }

  /**
   * No double booking: from any valid store (the empty one included), every
   * sequence of calls leaves ids unique and every slot held at most once.
   */
  lemma {:induction false} RunKeepsValid(s: Store, qs: seq<Request>)
    requires Valid(s)
    ensures Valid(Run(s, qs))
    decreases |qs|
  {
    if |qs| > 0 {
      match qs[0] {
      case Book(p, date, time, dentist, id, now) => ReserveKeepsValid(s, p, date, time, dentist, id, now);
      case CancelId(id) => CancelKeepsValid(s, id);
      case CancelEmail(e) => CancelByEmailKeepsValid(s, e);
      case ConfirmId(id) => SetAppointmentStatusKeepsValid(s, id, Confirmed);
      case DeclineId(id) => SetAppointmentStatusKeepsValid(s, id, Declined);
      }
      RunKeepsValid(Apply(s, qs[0]), qs[1..]);
    }
  }

  lemma EmptyIsValid()
    ensures Valid([])
  {
  }

  /**
   * Here a Declined appointment keeps its slot: after declining, the triple
   * is still unavailable until the appointment is cancelled.
   */
  lemma DeclineKeepsSlotHeld(s: Store, id: string)
    requires Contains(s, id)
    ensures var a := s[IndexOf(s, id).value];
      !IsTimeSlotAvailable(DeclineAppointment(s, id).1, a.dentist, a.date, a.time)
  {
    var i := IndexOf(s, id).value;
    var s' := DeclineAppointment(s, id).1;
    assert Occupies(s'[i], s[i].dentist, s[i].date, s[i].time);
  }
}

=== FILE: ordered_store.dfy ===
/**
 * An insertion-ordered dictionary from appointment id to appointment, as a
 * Python `dict` behaves: assignment to an existing key replaces the value
 * in place, assignment to a new key appends, and deletion closes the gap.
 * Both managers keep one (`self.appointments`).
 */
module OrderedStore {
  import opened Wrappers
  import opened Seqs
  import opened Records

  /** Values in insertion order; the dictionary keys are their ids. */
  type Store = seq<Appointment>

  /** A dictionary never holds a key twice. */
  predicate UniqueIds(s: Store) {
    UniqueKeys(s, IdOf)
  }

  function HasId(id: string): Appointment -> bool {
    (a: Appointment) => a.id == id
  }

  /** Position of the entry with key `id`, if any. */
  function IndexOf(s: Store, id: string): Option<nat> {
    FirstIndex(s, HasId(id))
  }

  predicate Contains(s: Store, id: string) {
    exists i | 0 <= i < |s| :: s[i].id == id
  }

  lemma IndexOfContains(s: Store, id: string)
    ensures IndexOf(s, id).Some? <==> Contains(s, id)
  {
  }

  /** `d[a.id] = a`: replace in place when the key exists, else append. */
  function Put(s: Store, a: Appointment): (r: Store)
    ensures IndexOf(s, a.id).None? ==> r == s + [a]
    ensures IndexOf(s, a.id).Some? ==> r == s[IndexOf(s, a.id).value := a]
  {
    if |s| == 0 then [a]
    else if s[0].id == a.id then [a] + s[1..]
    else
      var tail := Put(s[1..], a);
      assert IndexOf(s, a.id).Some? ==> IndexOf(s[1..], a.id).Some?;
      [s[0]] + tail
  }

  /** `d.pop(id, None)`: delete the entry with key `id`, if any. */
  function Pop(s: Store, id: string): (r: (bool, Store))
    ensures r.0 <==> Contains(s, id)
    ensures !r.0 ==> r.1 == s
    ensures r.0 ==> var i := IndexOf(s, id).value; r.1 == s[..i] + s[i + 1..]
  {
    (IndexOf(s, id).Some?, RemoveFirst(s, HasId(id)))
  }

  /** Sets the status of every entry keyed `id` and leaves all else alone. */
  function SetStatus(s: Store, id: string, st: Status): (r: Store)
    ensures |r| == |s|
    ensures forall i | 0 <= i < |s| ::
      r[i] == (if s[i].id == id then s[i].(status := st) else s[i])
  {
    UpdateWhere(s, HasId(id), (a: Appointment) => a.(status := st))
  }

  lemma PutKeepsUniqueIds(s: Store, a: Appointment)
    requires UniqueIds(s)
    ensures UniqueIds(Put(s, a))
    ensures Contains(Put(s, a), a.id)
  {
    match IndexOf(s, a.id)
    case None =>
      UniqueKeysAppend(s, a, IdOf);
      assert Put(s, a)[|s|] == a;
    case Some(i) =>
      UniqueKeysReplace(s, i, a, IdOf);
      assert Put(s, a)[i] == a;
  }

  /** Dict assignment keeps every entry stored under a different key. */
  lemma PutKeepsOtherIds(s: Store, a: Appointment)
    ensures forall b | b in s && b.id != a.id :: b in Put(s, a)
  {
    forall b | b in s && b.id != a.id ensures b in Put(s, a) {
      var k :| 0 <= k < |s| && s[k] == b;
      assert Put(s, a)[k] == b;
    }
  }

  lemma PopKeepsUniqueIds(s: Store, id: string)
    requires UniqueIds(s)
    ensures UniqueIds(Pop(s, id).1)
    ensures !Contains(Pop(s, id).1, id)
  {
    if Contains(s, id) {
      var i := IndexOf(s, id).value;
      UniqueKeysDelete(s, i, IdOf);
      var r := Pop(s, id).1;
      forall k | 0 <= k < |r| ensures r[k].id != id {
        if k < i { assert r[k] == s[k]; } else { assert r[k] == s[k + 1]; }
      }
    }
  }

  /** With unique ids, SetStatus touches exactly the one position holding `id`. */
  lemma SetStatusAtIndex(s: Store, id: string, st: Status)
    requires UniqueIds(s)
    ensures IndexOf(s, id).None? ==> SetStatus(s, id, st) == s
    ensures IndexOf(s, id).Some? ==>
      var i := IndexOf(s, id).value; SetStatus(s, id, st) == s[i := s[i].(status := st)]
  {
    var r := SetStatus(s, id, st);
    match IndexOf(s, id)
    case None =>
      assert r == s;
    case Some(i) =>
      forall k | 0 <= k < |s| ensures r[k] == s[i := s[i].(status := st)][k] {
        if k != i {
          assert IdOf(s[k]) != IdOf(s[i]) by {
            if k < i {} else {}
          }
        }
      }
  }
}

=== FILE: records.dfy ===
/**
 * The records both appointment managers share: a patient, an appointment
 * and its lifecycle status, and the (dentist, date, time) slot an
 * appointment occupies.
 */
module Records {

  /** `booked_at` comes from the wall clock; it is an opaque caller-supplied value here. */
  type Timestamp = int

  /** The three status strings the managers ever store. */
  datatype Status = Pending | Confirmed | Declined

  datatype Patient = Patient(name: string, email: string)

  datatype Appointment = Appointment(
    id: string,
    patient: Patient,
    date: string,
    time: string,
    dentist: string,
    status: Status,
    bookedAt: Timestamp)

  /** The unit of exclusivity: one dentist, one date, one time of day. */
  datatype Slot = Slot(dentist: string, date: string, time: string)

  function IdOf(a: Appointment): string {
    a.id
  }

  function SlotOf(a: Appointment): Slot {
    Slot(a.dentist, a.date, a.time)
  }

  /** A status that holds its slot in the database-backed manager. */
  predicate Active(s: Status) {
    s == Pending || s == Confirmed
  }
}

=== FILE: relational_store.dfy ===
/**
 * The relational state behind the database-backed manager: a `patients`
 * table and an `appointments` table, with the meaning of each SQL
 * statement the manager issues. Every statement is assumed to reach the
 * database and to commit; a statement the table constraints reject (a
 * duplicate UNIQUE value, a dangling foreign key) leaves the tables as they
 * were, as a failed INSERT does.
 */
module RelationalStore {
  import opened Wrappers
  import opened Seqs
  import opened Records

  /** A `patients` row; its AUTO_INCREMENT `patient_id` is its position plus one. */
  datatype PatientRow = PatientRow(name: string, email: string, gender: string)

  /** An `appointments` row, keyed by the UNIQUE column `appointment_uuid`. */
  datatype AppointmentRow = AppointmentRow(
    uuid: string,
    patientId: nat,
    date: string,
    time: string,
    dentist: string,
    status: Status,
    reason: string,
    bookedAt: Timestamp)

  /** Both tables, each in insertion (auto-increment) order. */
  datatype Db = Db(patients: seq<PatientRow>, appointments: seq<AppointmentRow>)

  /** One row of the listing query: an appointment joined with its patient. */
  datatype ListingRow = ListingRow(
    uuid: string, name: string, email: string, date: string, time: string,
    dentist: string, status: Status, reason: string)

  function EmailOf(p: PatientRow): string { p.email }
  function UuidOf(row: AppointmentRow): string { row.uuid }
  function RowSlot(row: AppointmentRow): Slot { Slot(row.dentist, row.date, row.time) }
  function ListingDate(l: ListingRow): string { l.date }

  /** `patient_id` refers to an existing patient. */
  predicate KnownPatient(db: Db, id: nat) {
    1 <= id <= |db.patients|
  }

  /** The row's patient (by the foreign key) has this email. */
  predicate BelongsTo(db: Db, row: AppointmentRow, email: string) {
    KnownPatient(db, row.patientId) && db.patients[row.patientId - 1].email == email
  }

  /** The constraints the schema declares: UNIQUE email, UNIQUE uuid, the foreign key. */
  predicate Constrained(db: Db) {
    && UniqueKeys(db.patients, EmailOf)
    && UniqueKeys(db.appointments, UuidOf)
    && forall row | row in db.appointments :: KnownPatient(db, row.patientId)
  }

  function HasPatientEmail(email: string): PatientRow -> bool {
    (p: PatientRow) => p.email == email
  }

  /** `SELECT patient_id ... WHERE email = %s`, first row. */
  function PatientIdOf(db: Db, email: string): (r: Option<nat>)
    ensures r.Some? ==> KnownPatient(db, r.value) && db.patients[r.value - 1].email == email
    ensures r.None? <==> forall i | 0 <= i < |db.patients| :: db.patients[i].email != email
  {
    match FirstIndex(db.patients, HasPatientEmail(email))
    case None => None
    case Some(i) => Some(i + 1)
  }

  /** With UNIQUE emails, the patient found by email is the only one with it. */
  lemma PatientIdOfUnique(db: Db, email: string, id: nat)
    requires UniqueKeys(db.patients, EmailOf)
    requires KnownPatient(db, id) && db.patients[id - 1].email == email
    ensures PatientIdOf(db, email) == Some(id)
  {
    var k := PatientIdOf(db, email).value;
    assert EmailOf(db.patients[k - 1]) == EmailOf(db.patients[id - 1]);
  }

  /** `INSERT INTO patients`; rejected by the UNIQUE email constraint when the email is known. */
  function AddPatient(db: Db, name: string, email: string, gender: string): (r: Db)
    ensures r.appointments == db.appointments
    ensures PatientIdOf(db, email).Some? ==> r == db
    ensures PatientIdOf(db, email).None? ==> r.patients == db.patients + [PatientRow(name, email, gender)]
    ensures PatientIdOf(r, email).Some?
    ensures UniqueKeys(db.patients, EmailOf) ==> UniqueKeys(r.patients, EmailOf)
  {
    if PatientIdOf(db, email).Some? then db
    else
      var r := Db(db.patients + [PatientRow(name, email, gender)], db.appointments);
      assert r.patients[|db.patients|].email == email;
      assert UniqueKeys(db.patients, EmailOf) ==> UniqueKeys(r.patients, EmailOf) by {
        if UniqueKeys(db.patients, EmailOf) {
          UniqueKeysAppend(db.patients, PatientRow(name, email, gender), EmailOf);
        }
      }
      r
  }

  predicate HasUuid(db: Db, uuid: string) {
    exists row | row in db.appointments :: row.uuid == uuid
  }

  /**
   * `INSERT INTO appointments` with status 'Pending'; rejected by the
   * UNIQUE uuid constraint or the foreign key when either is violated.
   */
  function AddAppointment(db: Db, patientId: nat, uuid: string, date: string, time: string,
                          dentist: string, reason: string, now: Timestamp): (r: Db)
    ensures r.patients == db.patients
    ensures HasUuid(db, uuid) || !KnownPatient(db, patientId) ==> r == db
    ensures !HasUuid(db, uuid) && KnownPatient(db, patientId) ==>
      r.appointments == db.appointments +
        [AppointmentRow(uuid, patientId, date, time, dentist, Pending, reason, now)]
  {
    if HasUuid(db, uuid) || !KnownPatient(db, patientId) then db
    else Db(db.patients, db.appointments +
              [AppointmentRow(uuid, patientId, date, time, dentist, Pending, reason, now)])
  }

  /** The row holds the triple: same slot and status 'Pending' or 'Confirmed'. */
  predicate Blocks(row: AppointmentRow, dentist: string, date: string, time: string) {
    row.dentist == dentist && row.date == date && row.time == time && Active(row.status)
  }

  /** `SELECT COUNT(*) ... WHERE dentist, date, time match AND status IN ('Pending', 'Confirmed')`. */
  function CountBlocking(rows: seq<AppointmentRow>, dentist: string, date: string, time: string): (n: nat)
    ensures n <= |rows|
    ensures n == 0 <==> forall i | 0 <= i < |rows| :: !Blocks(rows[i], dentist, date, time)
  {
    if |rows| == 0 then 0
    else
      var rest := CountBlocking(rows[1..], dentist, date, time);
      assert forall i | 1 <= i < |rows| :: rows[i] == rows[1..][i - 1];
      (if Blocks(rows[0], dentist, date, time) then 1 else 0) + rest
  }

  /** The slot is free when the count of holding rows is zero. */
  function CheckSlotAvailable(db: Db, dentist: string, date: string, time: string): (free: bool)
    ensures free <==> forall row | row in db.appointments :: !Blocks(row, dentist, date, time)
  {
    CountBlocking(db.appointments, dentist, date, time) == 0
  }

  function WithUuid(uuid: string): AppointmentRow -> bool {
    (row: AppointmentRow) => row.uuid == uuid
  }

  /** `UPDATE appointments SET status = %s WHERE appointment_uuid = %s`. */
  function UpdateAppointmentStatus(db: Db, uuid: string, st: Status): (r: Db)
    ensures r.patients == db.patients
    ensures |r.appointments| == |db.appointments|
    ensures forall i | 0 <= i < |db.appointments| ::
      var row := db.appointments[i];
      r.appointments[i] == (if row.uuid == uuid then row.(status := st) else row)
  {
    Db(db.patients, UpdateWhere(db.appointments, WithUuid(uuid), (row: AppointmentRow) => row.(status := st)))
  }

  function NotOfPatient(patientId: nat): AppointmentRow -> bool {
    (row: AppointmentRow) => row.patientId != patientId
  }

  function NotUuid(uuid: string): AppointmentRow -> bool {
    (row: AppointmentRow) => row.uuid != uuid
  }

  /**
   * Looks the patient up by email and deletes every appointment row with
   * that `patient_id`; false, with nothing deleted, only for an unknown email.
   */
  function DeleteAppointmentByEmail(db: Db, email: string): (r: (bool, Db))
    ensures r.0 <==> PatientIdOf(db, email).Some?
    ensures !r.0 ==> r.1 == db
    ensures r.1.patients == db.patients
    ensures |r.1.appointments| <= |db.appointments|
    ensures r.0 ==> forall row | row in r.1.appointments ::
      row in db.appointments && row.patientId != PatientIdOf(db, email).value
    ensures r.0 ==> forall row | row in db.appointments && row.patientId != PatientIdOf(db, email).value ::
      row in r.1.appointments
  {
    match PatientIdOf(db, email)
    case None => (false, db)
    case Some(pid) => (true, Db(db.patients, Filter(db.appointments, NotOfPatient(pid))))
  }

  /** `DELETE FROM appointments WHERE appointment_uuid = %s`; reports success even when no row matched. */
  function DeleteAppointmentByUuid(db: Db, uuid: string): (r: (bool, Db))
    ensures r.0
    ensures r.1.patients == db.patients
    ensures forall row | row in r.1.appointments :: row in db.appointments && row.uuid != uuid
    ensures forall row | row in db.appointments && row.uuid != uuid :: row in r.1.appointments
  {
    (true, Db(db.patients, Filter(db.appointments, NotUuid(uuid))))
  }

  function Listed(db: Db, row: AppointmentRow): ListingRow
    requires KnownPatient(db, row.patientId)
  {
    var p := db.patients[row.patientId - 1];
    ListingRow(row.uuid, p.name, p.email, row.date, row.time, row.dentist, row.status, row.reason)
  }

  /** The inner JOIN of appointments with patients, in appointment insertion order. */
  function Join(db: Db, rows: seq<AppointmentRow>): (r: seq<ListingRow>)
    ensures |r| <= |rows|
    ensures forall i | 0 <= i < |r| :: exists row | row in rows :: row.uuid == r[i].uuid
    ensures (forall row | row in rows :: KnownPatient(db, row.patientId)) ==>
      |r| == |rows| && forall i | 0 <= i < |rows| :: r[i] == Listed(db, rows[i])
  {
    if |rows| == 0 then []
    else
      var tail := Join(db, rows[1..]);
      assert forall row | row in rows[1..] :: row in rows;
      if KnownPatient(db, rows[0].patientId) then [Listed(db, rows[0])] + tail else tail
  }

  /**
   * The listing query: the JOIN ordered by `appointment_date` descending.
   * The column is text, so the order is lexicographic on the date string.
   * The database leaves the order of equal dates open; this model keeps
   * insertion order among them.
   */
  function GetAllAppointments(db: Db): (r: seq<ListingRow>)
    ensures SortedDesc(r, ListingDate)
    ensures multiset(r) == multiset(Join(db, db.appointments))
    ensures forall l | l in r :: exists row | row in db.appointments :: row.uuid == l.uuid
  {
    var joined := Join(db, db.appointments);
    var r := SortDesc(joined, ListingDate);
    assert forall l | l in r :: l in joined by {
      forall l | l in r ensures l in joined {
        assert l in multiset(r);
      }
    }
    r
  }

  /**
   * The date column holds MM/DD/YYYY text, so the descending order is by
   * month first and not chronological: a December 2025 booking is listed
   * before a January 2026 one.
   */
  lemma ListingIsMonthFirst()
    ensures
      var newer := AppointmentRow("a1", 1, "01/10/2026", "08:00 AM", "Dr. Lee", Pending, "", 0);
      var older := AppointmentRow("b2", 1, "12/01/2025", "08:00 AM", "Dr. Lee", Pending, "", 0);
      var db := Db([PatientRow("Ann", "ann@example.com", "N/A")], [newer, older]);
      GetAllAppointments(db) == [Listed(db, older), Listed(db, newer)]
  {
    var newer := AppointmentRow("a1", 1, "01/10/2026", "08:00 AM", "Dr. Lee", Pending, "", 0);
    var older := AppointmentRow("b2", 1, "12/01/2025", "08:00 AM", "Dr. Lee", Pending, "", 0);
    var db := Db([PatientRow("Ann", "ann@example.com", "N/A")], [newer, older]);
    var joined := Join(db, db.appointments);
    assert joined == [Listed(db, newer), Listed(db, older)];
    assert !LexLessEq("12/01/2025", "01/10/2026");
    assert LexLessEq("01/10/2026", "12/01/2025");
  }
}

=== FILE: seqs.dfy ===
/**
 * Generic facts about sequences used by both appointment managers: the
 * first index satisfying a predicate, removing that first element,
 * filtering, the subsequence relation, duplicate-freedom and an insertion
 * sort on a string key in descending lexicographic order.
 */
module Seqs {
  import opened Wrappers

  /** No element occurs twice in `s`. */
  predicate NoDuplicates<T(==)>(s: seq<T>) {
    forall i, j | 0 <= i < j < |s| :: s[i] != s[j]
  }

  /** `r` can be obtained from `s` by deleting elements (order kept). */
  predicate Subsequence<T(==)>(r: seq<T>, s: seq<T>)
    decreases |s|
  {
    if |r| == 0 then true
    else if |s| == 0 then false
    else if r[0] == s[0] then Subsequence(r[1..], s[1..])
    else Subsequence(r, s[1..])
  }

  /** The index of the first element satisfying `p`, if any. */
  function FirstIndex<T>(s: seq<T>, p: T -> bool): (r: Option<nat>)
    ensures r.Some? ==> r.value < |s| && p(s[r.value])
    ensures r.Some? ==> forall j | 0 <= j < r.value :: !p(s[j])
    ensures r.None? <==> forall j | 0 <= j < |s| :: !p(s[j])
  {
    if |s| == 0 then None
    else if p(s[0]) then Some(0)
    else match FirstIndex(s[1..], p)
      case None => None
      case Some(k) => Some(k + 1)
  }

  /**
   * Walks `s` front to back and drops the first element satisfying `p`,
   * as a loop that deletes and returns on its first hit does.
   */
  function RemoveFirst<T>(s: seq<T>, p: T -> bool): (r: seq<T>)
    ensures FirstIndex(s, p).None? ==> r == s
    ensures FirstIndex(s, p).Some? ==>
      var i := FirstIndex(s, p).value; r == s[..i] + s[i + 1..]
  {
    if |s| == 0 then []
    else if p(s[0]) then s[1..]
    else
      var tail := RemoveFirst(s[1..], p);
      assert FirstIndex(s, p).Some? ==> FirstIndex(s[1..], p).Some?;
      [s[0]] + tail
  }

  /** The elements of `s` satisfying `p`, in their original order. */
  function Filter<T>(s: seq<T>, p: T -> bool): (r: seq<T>)
    ensures |r| <= |s|
    ensures forall i | 0 <= i < |r| :: r[i] in s && p(r[i])
    ensures forall i | 0 <= i < |s| && p(s[i]) :: s[i] in r
  {
    if |s| == 0 then []
    else if p(s[0]) then [s[0]] + Filter(s[1..], p)
    else Filter(s[1..], p)
  }

  /** Filtering drops no copies: each passing element occurs as often as in `s`, and nothing else is added. */
  lemma {:induction false} FilterCounts<T>(s: seq<T>, p: T -> bool)
    ensures multiset(Filter(s, p)) <= multiset(s)
    ensures forall i | 0 <= i < |s| && p(s[i]) :: multiset(Filter(s, p))[s[i]] == multiset(s)[s[i]]
    decreases |s|
  {
    if |s| > 0 {
      FilterCounts(s[1..], p);
      assert s == [s[0]] + s[1..];
      forall i | 0 <= i < |s| && p(s[i]) ensures multiset(Filter(s, p))[s[i]] == multiset(s)[s[i]] {
        if i > 0 {
          assert s[i] == s[1..][i - 1];
        } else if s[0] in s[1..] {
          var k :| 0 <= k < |s[1..]| && s[1..][k] == s[0];
        } else {
          assert multiset(s[1..])[s[0]] == 0;
        }
      }
    }
  }

  /** Equal multisets have equal members. */
  lemma SameMultisetMember<T>(a: seq<T>, b: seq<T>, x: T)
    requires multiset(a) == multiset(b) && x in b
    ensures x in a
  {
    assert x in multiset(b);
  }

  /** `s` with `f` applied to every element satisfying `hit`; the rest, and the order, unchanged. */
  function UpdateWhere<T>(s: seq<T>, hit: T -> bool, f: T -> T): (r: seq<T>)
    ensures |r| == |s|
    ensures forall i | 0 <= i < |s| :: r[i] == (if hit(s[i]) then f(s[i]) else s[i])
  {
    if |s| == 0 then []
    else [if hit(s[0]) then f(s[0]) else s[0]] + UpdateWhere(s[1..], hit, f)
  }

  lemma {:induction false} FilterIsSubsequence<T>(s: seq<T>, p: T -> bool)
    ensures Subsequence(Filter(s, p), s)
    decreases |s|
  {
    if |s| > 0 {
      FilterIsSubsequence(s[1..], p);
      if !p(s[0]) {
        SubsequenceSkip(Filter(s[1..], p), s[0], s[1..]);
      }
    }
  }

  /** Prepending an element to the larger sequence keeps a subsequence one. */
  lemma {:induction false} SubsequenceSkip<T>(r: seq<T>, x: T, s: seq<T>)
    requires Subsequence(r, s)
    ensures Subsequence(r, [x] + s)
    decreases |s|, 1
  {
    var xs := [x] + s;
    assert xs[1..] == s;
    if |r| > 0 && r[0] == x {
      // Matching r[0] against x is one choice; the greedy definition picks
      // it, so show the rest fits in s.
      SubsequenceTail(r, s);
    }
  }

  /** Dropping the head of a subsequence keeps it a subsequence. */
  lemma {:induction false} SubsequenceTail<T>(r: seq<T>, s: seq<T>)
    requires |r| > 0 && Subsequence(r, s)
    ensures Subsequence(r[1..], s)
    decreases |s|, 0
  {
    if |s| > 0 {
      if r[0] == s[0] {
        SubsequenceSkip(r[1..], s[0], s[1..]);
        assert [s[0]] + s[1..] == s;
      } else {
        SubsequenceTail(r, s[1..]);
        SubsequenceSkip(r[1..], s[0], s[1..]);
        assert [s[0]] + s[1..] == s;
      }
    }
  }

  /** A filter of a duplicate-free sequence is duplicate-free. */
  lemma {:induction false} FilterNoDuplicates<T>(s: seq<T>, p: T -> bool)
    requires NoDuplicates(s)
    ensures NoDuplicates(Filter(s, p))
    decreases |s|
  {
    if |s| > 0 {
      assert NoDuplicates(s[1..]) by {
        forall i, j | 0 <= i < j < |s[1..]| ensures s[1..][i] != s[1..][j] {
          assert s[1..][i] == s[i + 1] && s[1..][j] == s[j + 1];
        }
      }
      FilterNoDuplicates(s[1..], p);
      if p(s[0]) {
        var t := Filter(s[1..], p);
        assert s[0] !in s[1..];
        assert s[0] !in t;
        var r := [s[0]] + t;
        forall i, j | 0 <= i < j < |r| ensures r[i] != r[j] {
          if i == 0 {
            assert r[j] == t[j - 1];
          } else {
            assert r[i] == t[i - 1] && r[j] == t[j - 1];
          }
        }
      }
    }
  }

  // ---------------------------------------------------------------------
  // Keys that identify elements: dictionary keys, UNIQUE columns, slots.
  // ---------------------------------------------------------------------

  /** No two positions of `s` carry the same `key`. */
  predicate UniqueKeys<T, K(==)>(s: seq<T>, key: T -> K) {
    forall i, j | 0 <= i < j < |s| :: key(s[i]) != key(s[j])
  }

  /** Under unique keys, a key determines its position. */
  lemma UniqueKeysAt<T, K>(s: seq<T>, key: T -> K, i: nat, j: nat)
    requires UniqueKeys(s, key)
    requires i < |s| && j < |s| && key(s[i]) == key(s[j])
    ensures i == j
  {
  }

  /** Appending an element whose key is new keeps keys unique. */
  lemma UniqueKeysAppend<T, K>(s: seq<T>, x: T, key: T -> K)
    requires UniqueKeys(s, key)
    requires forall i | 0 <= i < |s| :: key(s[i]) != key(x)
    ensures UniqueKeys(s + [x], key)
  {
  }

  /** Overwriting position `i` with an element no other position clashes with keeps keys unique. */
  lemma UniqueKeysReplace<T, K>(s: seq<T>, i: nat, x: T, key: T -> K)
    requires i < |s| && UniqueKeys(s, key)
    requires forall j | 0 <= j < |s| && j != i :: key(s[j]) != key(x)
    ensures UniqueKeys(s[i := x], key)
  {
  }

  /** Deleting position `i` keeps keys unique. */
  lemma UniqueKeysDelete<T, K>(s: seq<T>, i: nat, key: T -> K)
    requires i < |s| && UniqueKeys(s, key)
    ensures UniqueKeys(s[..i] + s[i + 1..], key)
  {
    var r := s[..i] + s[i + 1..];
    forall a, b | 0 <= a < b < |r| ensures key(r[a]) != key(r[b]) {
      var a' := if a < i then a else a + 1;
      var b' := if b < i then b else b + 1;
      assert r[a] == s[a'] && r[b] == s[b'];
    }
  }

  /** Filtering keeps keys unique. */
  lemma {:induction false} UniqueKeysFilter<T, K>(s: seq<T>, p: T -> bool, key: T -> K)
    requires UniqueKeys(s, key)
    ensures UniqueKeys(Filter(s, p), key)
    decreases |s|
  {
    if |s| > 0 {
      assert UniqueKeys(s[1..], key) by {
        forall a, b | 0 <= a < b < |s[1..]| ensures key(s[1..][a]) != key(s[1..][b]) {
          assert s[1..][a] == s[a + 1] && s[1..][b] == s[b + 1];
        }
      }
      UniqueKeysFilter(s[1..], p, key);
      if p(s[0]) {
        var t := Filter(s[1..], p);
        var r := [s[0]] + t;
        forall a, b | 0 <= a < b < |r| ensures key(r[a]) != key(r[b]) {
          assert r[b] == t[b - 1];
          assert t[b - 1] in s[1..];
          if a == 0 {
            var k :| 0 <= k < |s[1..]| && s[1..][k] == t[b - 1];
            assert s[k + 1] == t[b - 1];
          } else {
            assert r[a] == t[a - 1];
          }
        }
      }
    }
  }

  // ---------------------------------------------------------------------
  // Lexicographic string order and a descending insertion sort on a key.
  // ---------------------------------------------------------------------

  /** `a` sorts at or before `b`, comparing code points left to right. */
  predicate LexLessEq(a: string, b: string)
    decreases |a|
  {
    |a| == 0 ||
    (|b| > 0 && (a[0] < b[0] || (a[0] == b[0] && LexLessEq(a[1..], b[1..]))))
  }

  lemma {:induction false} LexTotal(a: string, b: string)
    ensures LexLessEq(a, b) || LexLessEq(b, a)
    decreases |a|
  {
    if |a| > 0 && |b| > 0 && a[0] == b[0] {
      LexTotal(a[1..], b[1..]);
    }
  }

  /** Every adjacent pair is in non-increasing order of `key`. */
  predicate SortedDesc<T>(s: seq<T>, key: T -> string) {
    forall i | 0 <= i < |s| - 1 :: LexLessEq(key(s[i + 1]), key(s[i]))
  }

  /** Inserts `x` into a descending-sorted `s` before the first smaller key. */
  function InsertDesc<T>(x: T, s: seq<T>, key: T -> string): (r: seq<T>)
    requires SortedDesc(s, key)
    ensures SortedDesc(r, key)
    ensures multiset(r) == multiset(s) + multiset{x}
    ensures |r| == |s| + 1
    ensures |s| > 0 ==> r[0] == x || r[0] == s[0]
  {
    if |s| == 0 then [x]
    else if LexLessEq(key(s[0]), key(x)) then [x] + s
    else
      LexTotal(key(s[0]), key(x));
      var tail := InsertDesc(x, s[1..], key);
      assert s == [s[0]] + s[1..];
      [s[0]] + tail
  }

  /**
   * Sorts by `key`, largest first; elements with equal keys keep their
   * original relative order.
   */
  function SortDesc<T>(s: seq<T>, key: T -> string): (r: seq<T>)
    ensures SortedDesc(r, key)
    ensures multiset(r) == multiset(s)
    ensures |r| == |s|
  {
    if |s| == 0 then []
    else
      assert s == [s[0]] + s[1..];
      InsertDesc(s[0], SortDesc(s[1..], key), key)
  }
}

=== FILE: wrappers.dfy ===
/** The Option datatype used for the program's `None`-or-value results. */
module Wrappers {

  datatype Option<+T> = None | Some(value: T)
}
